=== FILE: README.md ===
# yt-downloader — a Dafny model of the format picker, the download route and `buildUrl`

yt-downloader is a small web application. The user pastes a YouTube link.
The server fetches the video's metadata and the list of its encodings. The
client shows a quality picker, and the server then relays the chosen media
stream as a file attachment. This project models the parts of that path that
make decisions:

- **The client's video card** (`VideoCard` module). It filters the served
  encodings by the chosen tab: anything with a video track for MP4, anything
  with an audio track for MP3. It drops repeated quality labels, or repeated
  itags for unlabelled encodings, using the `findIndex` test of the source. It
  then sorts by itag, highest first, with the stable built-in sort. It picks
  the first option as the default itag, builds the download query and builds
  the history record, in which an unset quality becomes `"auto"`.
- **The server routes** (`ServerRoutes` module):
  - `POST /api/info`: URL check, metadata fetch, then the projection of the
    encoding list and the thumbnail fallback.
  - `GET /api/download`, decision part: URL check, fetch, title sanitising,
    the attachment header (which Node refuses for some characters the
    sanitiser keeps), the extension and the stream selection.
  - `GET /api/download`, relay part: the response, modelled as a `Response`
    class with `status`, `headers`, `headersSent`, `body` and `finished`
    fields, driven by data, end and error events of the media stream. An
    error answers 500 only while nothing has been sent.
  - `POST /api/history`: status 201 or 400.
- **`buildUrl`** (`SharedRoutes` module). A loop over the parameter entries
  replaces the first `:key` placeholder with `String(value)`. It is proved
  against a left-to-right fold, with lemmas about unchanged URLs,
  first-occurrence replacement, prefix matching, length, and the `$`
  patterns of `String.prototype.replace`.
- **The whole download** (`DownloadFlow` module). These lemmas connect the
  query the client builds to the stream the server opens.

The JavaScript built-ins these decisions rest on are written out in
`JsString`, following ECMA-262:
- the `\s` and `\w` classes;
- `String(n)` and `parseInt`, including leading whitespace, signs, the `0x`
  prefix and `NaN`;
- `indexOf` and `includes`;
- `replace` with a string pattern, including `$$`, `$&`, `` $` `` and `$'`.

The extraction library is a parameter, `Extractor`, holding its URL check and
its metadata fetch. The history store is also a parameter: a function from
the record to the stored row, or to `None` when the insert fails. Body
validation is an `Option` that is `None` when the body does not parse. A
missing query parameter is `""`, which every use in the route treats like
`undefined`.

## Model

| member | source | states |
|---|---|---|
| `JsString.IsWhitespace` | server/routes.ts:57 | no contract of its own (a predicate): the WhiteSpace and LineTerminator characters of ECMA-262 that `\s` matches and `parseInt` skips; `SanitizeTitleMembers` and `TrimStart` state how they are used |
| `JsString.IsWordChar` | server/routes.ts:57 | no contract of its own (a predicate): the ASCII letters, digits and `_` that `\w` matches (the `i` flag adds nothing without the `u` flag); `SanitizeTitleMembers` states how it is used |
| `JsString.NatToDecimal` | client/src/components/VideoCard.tsx:43 | the decimal digits of `n`: digits only, their value is `n`, no leading zero |
| `JsString.NumberToString` | client/src/components/VideoCard.tsx:48 | `String(itag)` is non-empty, starts with `-` exactly for negative numbers, and is digits otherwise |
| `JsString.TrimStart` | server/routes.ts:50 | `parseInt`'s trimming removes exactly the leading whitespace: what remains is a suffix, everything removed is whitespace, and what remains does not start with whitespace |
| `JsString.DigitPrefixLength` | server/routes.ts:50 | the run of digits `parseInt` reads is the longest one: all digits, and the next character is not one |
| `JsString.ParseInt` | server/routes.ts:50 | no contract of its own: `ParseIntNumberToString` proves it reads back every integer `String` writes, and `ParseIntNoDigits` proves that a value starting with anything other than whitespace, a sign or a digit gives `NaN` |
| `JsString.ParseUnsigned` | server/routes.ts:50 | no contract of its own: the `0x` prefix switch of `parseInt`, covered by `ParseIntNumberToString` |
| `JsString.ParseDigits` | server/routes.ts:50 | no contract of its own: reads the run `DigitPrefixLength` finds, or `NaN` when it is empty; covered by `ParseIntNumberToString` and `ParseIntNoDigits` |
| `JsString.ParseIntNumberToString` | server/routes.ts:50 | `parseInt` reads back every integer `String` writes, so an itag survives the trip through the query string |
| `JsString.ParseIntNoDigits` | server/routes.ts:50 | a value starting with anything other than whitespace, a sign or a digit parses to `NaN` |
| `JsString.IndexOf` | shared/routes.ts:77 | the result is the first position where the pattern occurs, or -1 when it occurs nowhere |
| `JsString.Includes` | shared/routes.ts:77 | no contract of its own: `IncludesIffMatch` states it holds exactly when the pattern occurs somewhere |
| `JsString.IncludesIffMatch` | shared/routes.ts:77 | `includes` holds exactly when the pattern occurs somewhere |
| `JsString.Substitute` | shared/routes.ts:78 | no contract of its own: `SubstitutePatterns` and `SubstituteLiteral` state what the replacement text becomes |
| `JsString.SubstitutePatterns` | shared/routes.ts:78 | `$$` gives `$`, `$&` the matched placeholder, `` $` `` the text before it and `$'` the text after it |
| `JsString.SubstituteLiteral` | shared/routes.ts:78 | a replacement text without `$` is inserted as it is |
| `JsString.Replace` | shared/routes.ts:78 | no occurrence leaves the string as it is; otherwise the text before the first occurrence and the text after it are kept |
| `VideoCard.FilterKind` | client/src/components/VideoCard.tsx:30-34 | an encoding is kept exactly when it was served and suits the tab (a video track for mp4, an audio track for mp3) |
| `VideoCard.Offered` | client/src/components/VideoCard.tsx:30-33 | no contract of its own (a predicate): a video track on the mp4 tab, an audio track on the mp3 tab; `FilterKindSingle` and `FilterKind` state how the filter uses it |
| `VideoCard.FilterKindAppend` | client/src/components/VideoCard.tsx:30-34 | the filter keeps the served order: filtering a concatenation is the concatenation of the filtered parts |
| `VideoCard.FilterKindSingle` | client/src/components/VideoCard.tsx:30-34 | a single encoding is kept exactly when it suits the tab |
| `Schema.HasLabel` | client/src/components/VideoCard.tsx:36 | no contract of its own (a predicate): a quality label that is present and not empty, as `!v.qualityLabel` tests; `KeepIsFirstOfKey` and `DedupPrefixDistinct` use it |
| `VideoCard.FindIndex` | client/src/components/VideoCard.tsx:37-38 | `findIndex` gives the first index whose element satisfies the test, or -1 when none does |
| `VideoCard.Keep` | client/src/components/VideoCard.tsx:35-38 | no contract of its own (a predicate, the callback of the second filter): `KeepIsFirstOfKey` proves it holds exactly for the first entry with its key |
| `VideoCard.Dedup` | client/src/components/VideoCard.tsx:35-38 | no contract of its own: the second filter over the whole list, whose properties `DedupPrefixSound`, `DedupPrefixComplete`, `DedupPrefixDistinct` and `DedupPrefixExtends` state |
| `VideoCard.KeepIsFirstOfKey` | client/src/components/VideoCard.tsx:36-39 | the `findIndex` test keeps an entry exactly when no earlier entry has its label (or, unlabelled, its itag) |
| `VideoCard.DedupPrefix` | client/src/components/VideoCard.tsx:36-39 | the second filter keeps at most the entries it reads |
| `VideoCard.DedupPrefixSound` | client/src/components/VideoCard.tsx:36-39 | every entry the second filter keeps comes first with its key |
| `VideoCard.DedupPrefixComplete` | client/src/components/VideoCard.tsx:36-39 | the second filter keeps every entry that comes first with its key |
| `VideoCard.DedupPrefixExtends` | client/src/components/VideoCard.tsx:36-39 | the second filter keeps the order of its input: what it keeps of earlier entries comes first |
| `VideoCard.DedupPrefixDistinct` | client/src/components/VideoCard.tsx:36-39 | after the second filter no two entries share a label and no two unlabelled ones share an itag |
| `VideoCard.Insert` | client/src/components/VideoCard.tsx:40 | inserting adds exactly the one element (a permutation of the input plus it) |
| `VideoCard.InsertSorted` | client/src/components/VideoCard.tsx:40 | inserting into a list sorted by itag, highest first, keeps it sorted |
| `VideoCard.SortByItag` | client/src/components/VideoCard.tsx:40 | the sort is a permutation of its input |
| `VideoCard.SortByItagMembers` | client/src/components/VideoCard.tsx:40 | the sort keeps exactly the input's elements |
| `VideoCard.SortByItagSorted` | client/src/components/VideoCard.tsx:40 | the sorted list runs from the highest itag down |
| `VideoCard.SortByItagStable` | client/src/components/VideoCard.tsx:40 | the sort is stable: entries with the same itag keep their relative order |
| `VideoCard.InsertWithItag` | client/src/components/VideoCard.tsx:40 | inserting an entry puts it ahead of the entries with its itag and keeps their order |
| `VideoCard.InsertDistinct` | client/src/components/VideoCard.tsx:40 | inserting an entry that clashes with none keeps a list free of clashes |
| `VideoCard.SortByItagDistinct` | client/src/components/VideoCard.tsx:40 | sorting keeps a list free of clashing labels and itags free of them |
| `VideoCard.AvailableOffered` | client/src/components/VideoCard.tsx:30-40 | every picker option is a served encoding that suits the tab, with a video track on the video tab and an audio track on the audio tab |
| `VideoCard.AvailableFormats` | client/src/components/VideoCard.tsx:29-40 | no contract of its own: `AvailableOffered`, `AvailableFirstOfKey`, `AvailableDistinctSorted` and `AvailableOnePerLabel` state what the options are, and `SortByItag`, `SortByItagStable` and `DedupPrefixExtends` fix their order |
| `VideoCard.AvailableFirstOfKey` | client/src/components/VideoCard.tsx:30-39 | the options are exactly the entries that come first with their key in the tab's list |
| `VideoCard.AvailableDistinctSorted` | client/src/components/VideoCard.tsx:30-40 | the options have distinct labels (distinct itags when unlabelled) and run from the highest itag down |
| `VideoCard.AvailableOnePerLabel` | client/src/components/VideoCard.tsx:35-39 | all encodings with the same label give exactly one option, namely the first of them in the tab's order |
| `VideoCard.SelectedItag` | client/src/components/VideoCard.tsx:48 | the selection is the chosen quality if there is one, otherwise the first option's itag as text, which `parseInt` reads back; it is empty only when nothing was chosen and nothing is on offer |
| `VideoCard.DefaultIsHighest` | client/src/components/VideoCard.tsx:42-43 | with nothing chosen, the default is the option with the highest itag |
| `VideoCard.DownloadParams` | client/src/components/VideoCard.tsx:49-53 | the query carries the original URL and the format, and carries `itag` exactly when the selection is non-empty |
| `VideoCard.Lookup` | server/routes.ts:48-50 | no contract of its own: `LookupFirst` states what a query lookup returns |
| `VideoCard.LookupFirst` | server/routes.ts:48-50 | a parameter is missing exactly when no entry carries its key, and otherwise its value is that of the first entry with the key |
| `VideoCard.HistoryPayload` | client/src/components/VideoCard.tsx:61-67 | the history record has the URL, title, thumbnail and format, and its quality is the chosen one or `"auto"` |
| `VideoCard.HandleDownload` | client/src/components/VideoCard.tsx:45-67 | a click sends an itag exactly when one is chosen or some option exists (by default the highest one), and records `"auto"` exactly when nothing or `"auto"` was chosen |
| `ServerRoutes.InfoFormats` | server/routes.ts:24-32 | the listed encodings are the mp4 ones and those with audio; every such served encoding appears, projected to its five fields |
| `ServerRoutes.InfoFormatsAppend` | server/routes.ts:24-32 | the projection keeps the extractor's order and repeats; it neither sorts nor deduplicates |
| `ServerRoutes.InfoFormatsSingle` | server/routes.ts:25-32 | one encoding is listed, projected, exactly when it is mp4 or has audio |
| `ServerRoutes.Listed` | server/routes.ts:25 | no contract of its own (a predicate): an mp4 container or an audio track; `InfoFormatsSingle` and `InfoFormats` state how the filter uses it |
| `ServerRoutes.Project` | server/routes.ts:26-32 | no contract of its own: the five fields the route copies; `InfoFormatsSingle` states that each listed entry is projected by it |
| `ServerRoutes.ThumbnailUrl` | server/routes.ts:36 | the thumbnail is the first thumbnail's URL, and `""` exactly when there is none or it is missing or empty |
| `ServerRoutes.BuildInfo` | server/routes.ts:34-39 | no contract of its own: the title, `ThumbnailUrl`, the length and `InfoFormats`, whose rows give their properties; `HandleInfo` states it is the 200 body |
| `ServerRoutes.HandleInfo` | server/routes.ts:14-44 | 200 with the projected metadata exactly when the body parses, the URL is accepted and the fetch succeeds; otherwise 400, with "Invalid YouTube URL" for a rejected URL and no fetch then |
| `ServerRoutes.Extension` | server/routes.ts:59 | the extension is "mp3" exactly for the format "mp3", and "mp4" for any other format |
| `ServerRoutes.ParsedItag` | server/routes.ts:50 | no contract of its own: `FalsyItagsAgree` states that a missing, zero or non-numeric itag selects the default stream, and `DownloadFlow.VideoChoice` states that a chosen quality reaches selection through it |
| `ServerRoutes.SelectStream` | server/routes.ts:61-73 | audio only exactly for "mp3", whatever the itag; otherwise the given itag exactly when it is truthy, and the best combined stream when it is not |
| `ServerRoutes.FalsyItagsAgree` | server/routes.ts:50 | itag `"0"`, a non-numeric itag and a missing itag select the same stream |
| `ServerRoutes.SanitizeTitle` | server/routes.ts:57 | the sanitised title is no longer than the title and has only word and whitespace characters |
| `ServerRoutes.FilenameChar` | server/routes.ts:57 | no contract of its own (a predicate): the characters `[\w\s]` keeps; `SanitizeTitleMembers` states that exactly these survive |
| `ServerRoutes.SanitizeTitleMembers` | server/routes.ts:57 | a character survives exactly when it is in the title and is a word or whitespace character |
| `ServerRoutes.SanitizeTitleClean` | server/routes.ts:57 | a title made only of word and whitespace characters is unchanged |
| `ServerRoutes.SanitizeTitleAppend` | server/routes.ts:57 | sanitising works character by character: it distributes over concatenation |
| `ServerRoutes.SanitizeTitleIdempotent` | server/routes.ts:57 | sanitising twice is sanitising once |
| `ServerRoutes.SanitizeTitleSubsequence` | server/routes.ts:57 | the sanitised title is the title with some characters left out, in the same order |
| `ServerRoutes.SanitizeTitleExample` | server/routes.ts:57 | `"Foo: Bar? <Baz>!"` becomes `"Foo Bar Baz"`: the spaces stay |
| `ServerRoutes.SanitizedTitleHarmless` | server/routes.ts:57-59 | no quote, slash, colon or angle bracket reaches the file name |
| `ServerRoutes.FixedPartsOk` | server/routes.ts:59 | the fixed parts of the attachment header are valid header text |
| `ServerRoutes.HeaderValueOk` | server/routes.ts:59 | no contract of its own (a predicate): Node's test for a header value, every character a tab or in U+0020-U+007E or U+0080-U+00FF; `HeaderValueOkConcat` and `DispositionAccepted` state its properties |
| `ServerRoutes.Disposition` | server/routes.ts:59 | no contract of its own: `DispositionAccepted` states when Node accepts it, and `PlanDownload` that a relay carries it |
| `ServerRoutes.HeaderValueOkConcat` | server/routes.ts:59 | a concatenation is valid header text exactly when both parts are |
| `ServerRoutes.SanitizedHeaderOk` | server/routes.ts:57-59 | the sanitised title is valid header text exactly when the title has no line break, vertical tab, form feed or whitespace above U+00FF |
| `ServerRoutes.DispositionAccepted` | server/routes.ts:57-59 | Node accepts the attachment header exactly when the raw title has none of that unsafe whitespace |
| `ServerRoutes.Response.constructor` | server/routes.ts:46 | a fresh response has status 200, no headers, nothing sent, and is not finished |
| `ServerRoutes.Response.SetStatus` | server/routes.ts:53 | `res.status` changes the status code and nothing else |
| `ServerRoutes.Response.SetHeader` | server/routes.ts:59 | `res.header` sets the header when Node accepts the value and reports a refusal otherwise, leaving the state as it was |
| `ServerRoutes.Response.Send` | server/routes.ts:53 | `send` appends the text, sends the headers and finishes the response |
| `ServerRoutes.Response.Write` | server/routes.ts:67 | a piped chunk is appended and sends the headers |
| `ServerRoutes.Response.End` | server/routes.ts:80 | the end of the pipe sends the headers and finishes the response |
| `ServerRoutes.PlanDownload` | server/routes.ts:46-86 | rejected URL, failed fetch, refused header or relay, each exactly in its case: the header is refused exactly when the URL passes, the fetch succeeds and Node refuses the attachment header, so an accepted header always leads to a relay; a relay carries that header, naming the sanitised title, and the selected stream |
| `ServerRoutes.DownloadCalls` | server/routes.ts:52-80 | the URL check always comes first; a rejected URL stops there; a stream is opened exactly for a relay, with its selection |
| `ServerRoutes.PlanState` | server/routes.ts:52-85 | status 400 exactly for a rejected URL, 500 exactly for a failed fetch or a refused header; headers are still unsent exactly for a relay, which leaves status 200, the attachment header as the only header, an empty body and an open response |
| `ServerRoutes.HandleDownload` | server/routes.ts:46-86 | the handler leaves the response in the planned state and makes the planned extractor calls |
| `ServerRoutes.LineBreakTitleFails` | server/routes.ts:57-85 | a video titled "Line\nBreak" passes the URL check and the fetch, yet gets status 500 and no stream |
| `ServerRoutes.Step` | server/routes.ts:61-80 | every event sends the headers; a chunk is appended to the body as that media and finishes nothing; the end finishes the response and adds nothing; after sending, the status and headers never change; an error after sending changes nothing; an error before sending gives a finished 500 that keeps the headers already set and adds the text "Download failed"; the body only grows |
| `ServerRoutes.Run` | server/routes.ts:61-80 | no contract of its own: `SentIsFinal`, `RelayStatus`, `RelayFinished`, `RunData`, `RunDataEnd` and `RelayBody` state what a sequence of stream events does |
| `ServerRoutes.SentIsFinal` | server/routes.ts:65 | once headers are sent, no sequence of events changes the status or the headers, and only media is added to the body |
| `ServerRoutes.RelayStatus` | server/routes.ts:61-80 | a relayed download, mp3 or video with any stream selection, ends with status 500 exactly when the stream fails before its first chunk, and 200 otherwise |
| `ServerRoutes.RelayFinished` | server/routes.ts:63-80 | the response is finished exactly when the stream ends, or fails before its first chunk; a failure after data leaves it open |
| `ServerRoutes.RunData` | server/routes.ts:62-67 | data events append exactly their bytes, in order, and send the headers; nothing else changes |
| `ServerRoutes.RunDataEnd` | server/routes.ts:62-80 | data events followed by the end give their bytes in order and a finished response |
| `ServerRoutes.RelayBody` | server/routes.ts:59-80 | from the state the handler leaves, the body is exactly the stream's chunks in order, under status 200 and the attachment header; the end finishes it with nothing added |
| `ServerRoutes.OnStreamData` | server/routes.ts:67 | a chunk event does what `Step` says of data |
| `ServerRoutes.OnStreamEnd` | server/routes.ts:80 | the end event does what `Step` says of the end |
| `ServerRoutes.OnStreamError` | server/routes.ts:76-79 | the error listener does what `Step` says of an error: 500 only when nothing was sent yet |
| `ServerRoutes.HandleRecordHistory` | server/routes.ts:93-101 | 201 with the stored row exactly when the body parses and the insert succeeds; otherwise 400 "Invalid history data"; the insert is attempted exactly when the body parses |
| `SharedRoutes.ToJsString` | shared/routes.ts:78 | `String(value)` is the text itself for a string, and text `parseInt` reads back as the number for a number |
| `SharedRoutes.Placeholder` | shared/routes.ts:77 | the placeholder is `:` followed by exactly the key |
| `SharedRoutes.ApplyEntry` | shared/routes.ts:77-79 | an entry whose placeholder is not in the URL leaves it unchanged |
| `SharedRoutes.ApplyAll` | shared/routes.ts:76-80 | no contract of its own: `BuildUrl` is proved equal to it, and `ApplyAllFirst` and `NoColonUnchanged` state its order and its identity cases |
| `SharedRoutes.BuildUrl` | shared/routes.ts:73-83 | no params gives the path; otherwise the entries are applied one after the other, in order |
| `SharedRoutes.ApplyAllFirst` | shared/routes.ts:76-80 | the first entry sees the path, and each later entry sees what the earlier ones produced |
| `SharedRoutes.NoColonUnchanged` | shared/routes.ts:77 | a path without `:` comes back unchanged, whatever the params |
| `SharedRoutes.FirstOccurrenceIndex` | shared/routes.ts:77 | an occurrence with none before it is the one `indexOf` finds |
| `SharedRoutes.ReplacesFirstOccurrence` | shared/routes.ts:78 | only the first placeholder is replaced, by the value's text when it has no `$`; the text around it, later placeholders included, stays |
| `SharedRoutes.ApplyEntryLength` | shared/routes.ts:78 | with a value without `$`, an applied entry changes the length by the value's length minus the placeholder's |
| `SharedRoutes.MatchedTextValue` | shared/routes.ts:78 | a value `"$&"` puts the placeholder back, so the URL is unchanged |
| `SharedRoutes.PlaceholderPrefixFilled` | shared/routes.ts:77-78 | matching is by substring: the first `:key` is filled even when the placeholder goes on, so key `id` fills the front of `:idx` and leaves the `x` |
| `DownloadFlow.QueryOf` | server/routes.ts:48-50 | each of `url`, `format` and `itag` reads as its value when present in the query and as `""` when missing |
| `DownloadFlow.ServedStream` | server/routes.ts:50-73 | no contract of its own: the stream the server selects from the query the client built; `AudioIsAudioOnly`, `VideoDefault` and `VideoChoice` state what it is |
| `DownloadFlow.QueryRoundTrip` | client/src/components/VideoCard.tsx:49-53 | the server reads back the URL and format the client sent |
| `DownloadFlow.AudioIsAudioOnly` | server/routes.ts:61-62 | an audio download always gets the best audio-only stream, whatever itag the picker shows |
| `DownloadFlow.VideoDefault` | client/src/components/VideoCard.tsx:48 | with nothing chosen on the video tab, the server asks for the highest option's itag; it asks for the best combined stream when that itag is 0 or nothing is on offer |
| `DownloadFlow.VideoChoice` | server/routes.ts:71-72 | a chosen video quality reaches the stream selection as the itag the user picked |

## Left out

- The extraction library (`ytdl.validateURL`, `ytdl.getInfo`, `ytdl(...)`) is a parameter. Its URL check, its fetch and its stream are not modelled inside. A stream is a sequence of data, end and error events.
- Backpressure, concurrency and the asynchronous timing of events are not modelled. The relay is the sequence of events applied to the response in order.
- `GET /api/history` (server/routes.ts:88-91) is not modelled. It only returns what the store gives back.
- The store (server/storage.ts) is not part of this model. Its insert is a parameter, and the ordering and limit of the history query belong to the database.
- Body validation (the zod schemas) is treated as a result that either parsed or did not.
- Percent-encoding of the query string by `URLSearchParams` is not modelled. The query is the list of its key/value pairs.
- A query parameter given twice, which Express turns into an array, is not modelled.
- `Object.entries` lists integer-like keys first. This order is not modelled: `BuildUrl` takes the entries in the order given.
- Numbers: itags and `buildUrl` values are integers. Numbers of magnitude 10^21 or more, which `String` prints in exponent form, are not modelled, and neither are fractions or the loss of precision above 2^53.
- `send` and `json` also set `Content-Type` and `Content-Length`. Only the status, the attachment header and the body are modelled.
- Header names are case-insensitive in Node. The model stores the one header the route sets under its given name.
- The client's React state, toasts, the navigation to the download URL and logging are left out. What a click produces is the query and the history record.
- The stream `error` listener does nothing once headers are sent, so a failure after the first chunk leaves the response open (`RelayFinished`). The response is neither finished nor given an error status then.
- The sanitised title keeps its spaces, so `"Foo: Bar? <Baz>!"` gives `"Foo Bar Baz"`, as the code does.
- The second filter of the picker keeps the source's repeated `findIndex` test as written. An unlabelled entry is compared by itag with every earlier entry, labelled or not.

=== FILE: download_flow.dfy ===
/** The download as a whole: the query the picker builds on the client is
    read back by `GET /api/download` on the server, which picks the stream. */
module DownloadFlow {
  import opened Schema
  import VideoCard
  import ServerRoutes

  /** `req.query` as the download handler reads it: a parameter present in
      the query is its value, and a missing one is `""`, which the handler
      treats like `undefined`. */
  function QueryOf(params: seq<(string, string)>): (q: ServerRoutes.DownloadQuery)
    ensures VideoCard.Lookup(params, "url").Some? ==> q.url == VideoCard.Lookup(params, "url").value
    ensures VideoCard.Lookup(params, "url").None? ==> q.url == ""
    ensures VideoCard.Lookup(params, "format").Some? ==> q.format == VideoCard.Lookup(params, "format").value
    ensures VideoCard.Lookup(params, "format").None? ==> q.format == ""
    ensures VideoCard.Lookup(params, "itag").Some? ==> q.itag == VideoCard.Lookup(params, "itag").value
    ensures VideoCard.Lookup(params, "itag").None? ==> q.itag == ""
  {
    ServerRoutes.DownloadQuery(
      VideoCard.Lookup(params, "url").GetOr(""),
      VideoCard.Lookup(params, "format").GetOr(""),
      VideoCard.Lookup(params, "itag").GetOr(""))
  }

  /** The stream the server opens for a click on the client's download button,
      when the extractor accepts the URL and the header is accepted. */
  function ServedStream(info: VideoInfo, originalUrl: string, kind: VideoCard.MediaKind, quality: string): ServerRoutes.StreamOptions {
    var q := QueryOf(VideoCard.HandleDownload(info, originalUrl, kind, quality).query);
    ServerRoutes.SelectStream(q.format, ServerRoutes.ParsedItag(q.itag))
  }

  /** The server reads back the URL and format the client sent. */
  lemma QueryRoundTrip(info: VideoInfo, originalUrl: string, kind: VideoCard.MediaKind, quality: string)
    ensures var q := QueryOf(VideoCard.HandleDownload(info, originalUrl, kind, quality).query);
      q.url == originalUrl && q.format == kind.Name()
  {
  }

  /** An audio download is always the best audio-only stream, whatever itag
      the picker shows. */
  lemma AudioIsAudioOnly(info: VideoInfo, originalUrl: string, quality: string)
    ensures ServedStream(info, originalUrl, VideoCard.Mp3, quality) == ServerRoutes.HighestAudioOnly
  {
  }

  /** A video download with no explicit choice gets the highest itag on
      offer when that itag is truthy, and the best combined stream when it
      is 0 or nothing is on offer. */
  lemma VideoDefault(info: VideoInfo, originalUrl: string)
    ensures var available := VideoCard.AvailableFormats(info.formats, VideoCard.Mp4);
      && (available != [] && available[0].itag != 0 ==>
            ServedStream(info, originalUrl, VideoCard.Mp4, "") == ServerRoutes.Quality(available[0].itag))
      && (available != [] && available[0].itag == 0 ==>
            ServedStream(info, originalUrl, VideoCard.Mp4, "") == ServerRoutes.HighestAudioAndVideo)
      && (available == [] ==>
            ServedStream(info, originalUrl, VideoCard.Mp4, "") == ServerRoutes.HighestAudioAndVideo)
  {
    var available := VideoCard.AvailableFormats(info.formats, VideoCard.Mp4);
    var selected := VideoCard.SelectedItag("", available);
    var params := VideoCard.DownloadParams(originalUrl, VideoCard.Mp4, selected);
    assert VideoCard.HandleDownload(info, originalUrl, VideoCard.Mp4, "").query == params;
    if available != [] {
      assert selected != "";
      assert QueryOf(params).itag == selected;
    } else {
      assert QueryOf(params).itag == "";
    }
  }

  /** A video download with an explicit choice asks for exactly that itag. */
  lemma VideoChoice(info: VideoInfo, originalUrl: string, quality: string)
    requires quality != ""
    ensures ServedStream(info, originalUrl, VideoCard.Mp4, quality) ==
      ServerRoutes.SelectStream("mp4", ServerRoutes.ParsedItag(quality))
  {
    var available := VideoCard.AvailableFormats(info.formats, VideoCard.Mp4);
    var params := VideoCard.DownloadParams(originalUrl, VideoCard.Mp4, quality);
    assert VideoCard.SelectedItag(quality, available) == quality;
    assert VideoCard.HandleDownload(info, originalUrl, VideoCard.Mp4, quality).query == params;
    assert QueryOf(params).itag == quality;
  }
}

=== FILE: js_string.dfy ===
/** The JavaScript string built-ins the core relies on, as ECMA-262 defines them:
    the `\s` and `\w` character classes, `String(n)` for integers, `parseInt`,
    `includes`/`indexOf` and `replace` with a string pattern. */
module JsString {
  import opened Wrappers

  /** `\s` in a regular expression: WhiteSpace and LineTerminator. `parseInt`
      trims exactly the same set from the front of its argument. */
  predicate IsWhitespace(c: char) {
    c == '\t' || c == '\n' || c == '\U{000B}' || c == '\U{000C}' || c == '\r' || c == ' ' ||
    c == '\U{00A0}' || c == '\U{1680}' || ('\U{2000}' <= c <= '\U{200A}') ||
    c == '\U{2028}' || c == '\U{2029}' || c == '\U{202F}' || c == '\U{205F}' ||
    c == '\U{3000}' || c == '\U{FEFF}'
  }

  /** `\w` without the `u` flag (the `i` flag does not widen it): ASCII letters,
      digits and underscore. */
  predicate IsWordChar(c: char) {
    ('A' <= c <= 'Z') || ('a' <= c <= 'z') || ('0' <= c <= '9') || c == '_'
  }

  // ---------------------------------------------------------------------------
  // String(n) for an integer-valued Number
  // ---------------------------------------------------------------------------

  function DigitChar(d: nat): (c: char)
    requires d < 10
    ensures IsRadixDigit(c, 10) && DigitValue(c) == d
  {
    ('0' as int + d) as char
  }

  /** Decimal digits of `n`, most significant first, without leading zeros. */
  function NatToDecimal(n: nat): (s: string)
    ensures |s| >= 1
    ensures forall i :: 0 <= i < |s| ==> IsRadixDigit(s[i], 10)
    ensures DigitsValue(s, 10) == n
    ensures s[0] == '0' ==> s == "0"
  {
    if n < 10 then [DigitChar(n)]
    else
      var front := NatToDecimal(n / 10);
      var s := front + [DigitChar(n % 10)];
      assert s[..|s| - 1] == front;
      s
  }

  /** `String(n)`: a minus sign for negative numbers, then the decimal digits.
      (Numbers of magnitude 10^21 or more, which JavaScript prints in exponent
      form, are not itags and are not modelled.) */
  function NumberToString(n: int): (s: string)
    ensures |s| >= 1
    ensures s[0] == '-' <==> n < 0
    ensures forall i :: (if n < 0 then 1 else 0) <= i < |s| ==> IsRadixDigit(s[i], 10)
  {
    if n < 0 then "-" + NatToDecimal(-n) else NatToDecimal(n)
  }

  // ---------------------------------------------------------------------------
  // parseInt(s) with no radix argument
  // ---------------------------------------------------------------------------

  /** Value of an ASCII alphanumeric as a digit (`0`-`9`, then `a`/`A` = 10 up to
      `z`/`Z` = 35); -1 for any other character. */
  function DigitValue(c: char): int {
    if '0' <= c <= '9' then c as int - '0' as int
    else if 'a' <= c <= 'z' then c as int - 'a' as int + 10
    else if 'A' <= c <= 'Z' then c as int - 'A' as int + 10
    else -1
  }

  predicate IsRadixDigit(c: char, radix: nat) {
    0 <= DigitValue(c) < radix
  }

  /** Value of a string of radix digits, most significant first. */
  function DigitsValue(s: string, radix: nat): int {
    if s == [] then 0
    else DigitsValue(s[..|s| - 1], radix) * radix + DigitValue(s[|s| - 1])
  }

  /** Length of the longest prefix of `s` made of radix digits. */
  function DigitPrefixLength(s: string, radix: nat): (k: nat)
    ensures k <= |s|
    ensures forall i :: 0 <= i < k ==> IsRadixDigit(s[i], radix)
    ensures k < |s| ==> !IsRadixDigit(s[k], radix)
  {
    if s == [] || !IsRadixDigit(s[0], radix) then 0
    else 1 + DigitPrefixLength(s[1..], radix)
  }

  /** `s` without its leading whitespace. */
  function TrimStart(s: string): (t: string)
    ensures |t| <= |s| && t == s[|s| - |t|..]
    ensures forall i :: 0 <= i < |s| - |t| ==> IsWhitespace(s[i])
    ensures t != [] ==> !IsWhitespace(t[0])
  {
    if s != [] && IsWhitespace(s[0]) then TrimStart(s[1..]) else s
  }

  /** `parseInt(s)`: skip leading whitespace, take an optional sign, switch to
      radix 16 after a `0x`/`0X` prefix, and read the longest run of digits;
      no digits gives `NaN` (here `None`). `-0` is returned as 0, which is
      falsy like `-0`. Loss of precision above 2^53 is not modelled. */
  function ParseInt(s: string): Option<int> {
    var t := TrimStart(s);
    if t != [] && t[0] == '-' then
      match ParseUnsigned(t[1..])
      case None => None
      case Some(v) => Some(-v)
    else if t != [] && t[0] == '+' then ParseUnsigned(t[1..])
    else ParseUnsigned(t)
  }

  /** `parseInt` after the sign: a `0x`/`0X` prefix selects radix 16. */
  function ParseUnsigned(u: string): Option<int> {
    if |u| >= 2 && u[0] == '0' && (u[1] == 'x' || u[1] == 'X') then ParseDigits(u[2..], 16)
    else ParseDigits(u, 10)
  }

  /** The value of the longest run of radix digits at the front of `v`, or
      `None` when there is none. */
  function ParseDigits(v: string, radix: nat): Option<int> {
    var k := DigitPrefixLength(v, radix);
    if k == 0 then None else Some(DigitsValue(v[..k], radix))
  }

  /** `parseInt` reads back every integer that `String` writes. */
  lemma ParseIntNumberToString(n: int)
    ensures ParseInt(NumberToString(n)) == Some(n)
  {
    var s := NumberToString(n);
    var m := if n < 0 then -n else n;
    var d := NatToDecimal(m);
    assert !IsWhitespace(s[0]);
    assert TrimStart(s) == s;
    DigitPrefixAll(d, 10);
    assert d[..|d|] == d;
    assert ParseDigits(d, 10) == Some(m);
    assert |d| >= 2 ==> d[0] != '0';
    assert ParseUnsigned(d) == Some(m);
    if n < 0 {
      assert s[1..] == d;
    }
  }

  /** `parseInt` gives `NaN` for a string that starts with anything other than
      whitespace, a sign or a decimal digit. */
  lemma ParseIntNoDigits(s: string)
    requires s != [] && !IsWhitespace(s[0]) && s[0] != '+' && s[0] != '-'
    requires !IsRadixDigit(s[0], 10)
    ensures ParseInt(s) == None
  {
    assert TrimStart(s) == s;
  }

  lemma {:induction false} DigitPrefixAll(s: string, radix: nat)
    requires forall i :: 0 <= i < |s| ==> IsRadixDigit(s[i], radix)
    ensures DigitPrefixLength(s, radix) == |s|
  {
    if s != [] {
      DigitPrefixAll(s[1..], radix);
    }
  }

  // ---------------------------------------------------------------------------
  // indexOf / includes / replace with a string pattern
  // ---------------------------------------------------------------------------

  predicate MatchAt(s: string, pat: string, i: int) {
    0 <= i && i + |pat| <= |s| && s[i..i + |pat|] == pat
  }

  /** The first position at or after `from` where `pat` occurs, or -1. */
  function IndexOfFrom(s: string, pat: string, from: nat): (r: int)
    requires from <= |s|
    decreases |s| - from
    ensures r == -1 || (from <= r && MatchAt(s, pat, r))
    ensures forall j :: from <= j && (r == -1 || j < r) ==> !MatchAt(s, pat, j)
  {
    if from + |pat| > |s| then -1
    else if s[from..from + |pat|] == pat then from
    else IndexOfFrom(s, pat, from + 1)
  }

  /** `s.indexOf(pat)`. */
  function IndexOf(s: string, pat: string): (r: int)
    ensures r == -1 || MatchAt(s, pat, r)
    ensures forall j :: 0 <= j && (r == -1 || j < r) ==> !MatchAt(s, pat, j)
  {
    IndexOfFrom(s, pat, 0)
  }

  /** `s.includes(pat)`. */
  predicate Includes(s: string, pat: string) {
    IndexOf(s, pat) != -1
  }

  lemma IncludesIffMatch(s: string, pat: string)
    ensures Includes(s, pat) <==> exists i :: MatchAt(s, pat, i)
  {
  }

  /** GetSubstitution of ECMA-262 for a match without capture groups: `$$`
      gives `$`, `$&` the matched text, `` $` `` the text before it, `$'` the
      text after it; every other `$` (including `$1` and `$<`) is literal. */
  function Substitute(matched: string, before: string, after: string, rep: string): string
  {
    if rep == [] then ""
    else if rep[0] == '$' && |rep| >= 2 && rep[1] == '$' then "$" + Substitute(matched, before, after, rep[2..])
    else if rep[0] == '$' && |rep| >= 2 && rep[1] == '&' then matched + Substitute(matched, before, after, rep[2..])
    else if rep[0] == '$' && |rep| >= 2 && rep[1] == '`' then before + Substitute(matched, before, after, rep[2..])
    else if rep[0] == '$' && |rep| >= 2 && rep[1] == '\'' then after + Substitute(matched, before, after, rep[2..])
    else [rep[0]] + Substitute(matched, before, after, rep[1..])
  }

  /** Each two-character pattern stands for its part of the match: `$$` for
      a `$`, `$&` for the matched text, `` $` `` for the text before it and
      `$'` for the text after it. */
  lemma SubstitutePatterns(matched: string, before: string, after: string, rep: string)
    requires |rep| == 2 && rep[0] == '$'
    ensures rep[1] == '$' ==> Substitute(matched, before, after, rep) == "$"
    ensures rep[1] == '&' ==> Substitute(matched, before, after, rep) == matched
    ensures rep[1] == '`' ==> Substitute(matched, before, after, rep) == before
    ensures rep[1] == '\'' ==> Substitute(matched, before, after, rep) == after
  {
    assert rep[2..] == "";
    assert Substitute(matched, before, after, "") == "";
  }

  /** A replacement text without `$` is inserted as it is. */
  lemma {:induction false} SubstituteLiteral(matched: string, before: string, after: string, rep: string)
    requires forall i :: 0 <= i < |rep| ==> rep[i] != '$'
    ensures Substitute(matched, before, after, rep) == rep
  {
    if rep != [] {
      SubstituteLiteral(matched, before, after, rep[1..]);
    }
  }

  /** `s.replace(pat, rep)` with a string `pat`: only the first occurrence is
      replaced; text before and after it is kept. */
  function Replace(s: string, pat: string, rep: string): (r: string)
    ensures IndexOf(s, pat) == -1 ==> r == s
    ensures IndexOf(s, pat) != -1 ==>
      var p := IndexOf(s, pat);
      && p <= |r| && r[..p] == s[..p]
      && |s| - p - |pat| <= |r| && r[|r| - (|s| - p - |pat|)..] == s[p + |pat|..]
  {
    var p := IndexOf(s, pat);
    if p == -1 then s
    else s[..p] + Substitute(pat, s[..p], s[p + |pat|..], rep) + s[p + |pat|..]
  }
}

=== FILE: schema.dfy ===
/** Record shapes shared by the server and the client: the encoding descriptor
    and video metadata served by `POST /api/info`, and the history rows written
    by `POST /api/history`. */
module Schema {
  import opened Wrappers

  /** One encoding as served to the client. The quality label is missing
      (`undefined` or `null`) for some audio-only encodings. */
  datatype Encoding = Encoding(
    itag: int,
    qualityLabel: Option<string>,
    container: string,
    hasAudio: bool,
    hasVideo: bool)

  /** The label as JavaScript's truthiness sees it: present and not `""`. */
  predicate HasLabel(e: Encoding) {
    e.qualityLabel.Some? && e.qualityLabel.value != ""
  }

  /** The body of a successful `POST /api/info`. */
  datatype VideoInfo = VideoInfo(
    title: string,
    thumbnail: string,
    duration: string,
    formats: seq<Encoding>)

  /** A history record as sent by the client; the store assigns `id` and
      `createdAt`. */
  datatype InsertDownload = InsertDownload(
    url: string,
    title: string,
    thumbnail: Option<string>,
    format: string,
    quality: Option<string>)

  /** A stored history row. */
  datatype Download = Download(
    id: int,
    url: string,
    title: string,
    thumbnail: Option<string>,
    format: string,
    quality: Option<string>,
    createdAt: Option<int>)
}

=== FILE: server_routes.dfy ===
/** The server's HTTP routes: `POST /api/info` (metadata and the projected
    encoding list), `GET /api/download` (URL check, attachment header, stream
    selection and the relay with its two-phase error handling) and
    `POST /api/history` (record a download). The extraction library and the
    store are parameters the model does not look inside. */
module ServerRoutes {
  import opened Wrappers
  import opened JsString
  import opened Schema

  newtype byte = x: int | 0 <= x < 256

  // ---------------------------------------------------------------------------
  // What the extraction library returns, and how it is called
  // ---------------------------------------------------------------------------

  /** One encoding as the extractor reports it (it carries more fields than
      the ones the route forwards; `mimeType` and `url` stand for those). */
  datatype RawFormat = RawFormat(
    itag: int,
    qualityLabel: Option<string>,
    container: string,
    hasAudio: bool,
    hasVideo: bool,
    mimeType: string,
    url: string)

  datatype Thumbnail = Thumbnail(url: Option<string>, width: int, height: int)

  datatype VideoDetails = VideoDetails(title: string, lengthSeconds: string, thumbnails: seq<Thumbnail>)

  datatype RawInfo = RawInfo(details: VideoDetails, formats: seq<RawFormat>)

  /** The selection handed to the extractor's stream call. */
  datatype StreamOptions =
    | HighestAudioOnly          // { quality: 'highestaudio', filter: 'audioonly' }
    | Quality(itag: int)        // { quality: itag }
    | HighestAudioAndVideo      // { quality: 'highest', filter: 'audioandvideo' }

  /** The extractor's URL check and metadata fetch; `None` is a rejected fetch. */
  datatype Extractor = Extractor(validateUrl: string -> bool, getInfo: string -> Option<RawInfo>)

  /** The calls a handler makes into the extractor, in order. */
  datatype ExtractorCall =
    | ValidateUrl(url: string)
    | GetInfo(url: string)
    | OpenStream(url: string, options: StreamOptions)

  // ---------------------------------------------------------------------------
  // POST /api/info
  // ---------------------------------------------------------------------------

  /** The route keeps the mp4 encodings and every encoding with audio. */
  predicate Listed(f: RawFormat) {
    f.container == "mp4" || f.hasAudio
  }

  function Project(f: RawFormat): Encoding {
    Encoding(f.itag, f.qualityLabel, f.container, f.hasAudio, f.hasVideo)
  }

  /** `info.formats.filter(...).map(...)`. */
  function InfoFormats(raw: seq<RawFormat>): (r: seq<Encoding>)
    ensures |r| <= |raw|
    ensures forall e :: e in r ==> e.container == "mp4" || e.hasAudio
    ensures forall f :: f in raw && Listed(f) ==> Project(f) in r
  {
    if raw == [] then []
    else (if Listed(raw[0]) then [Project(raw[0])] else []) + InfoFormats(raw[1..])
  }

  /** The projection keeps the extractor's order and every listed entry,
      repeats included: it neither sorts nor deduplicates. */
  lemma {:induction false} InfoFormatsAppend(a: seq<RawFormat>, b: seq<RawFormat>)
    ensures InfoFormats(a + b) == InfoFormats(a) + InfoFormats(b)
  {
    if a != [] {
      assert (a + b)[1..] == a[1..] + b;
      InfoFormatsAppend(a[1..], b);
    } else {
      assert a + b == b;
    }
  }

  lemma InfoFormatsSingle(f: RawFormat)
    ensures InfoFormats([f]) == if Listed(f) then [Project(f)] else []
  {
    assert [f][1..] == [];
  }

  /** `thumbnails[0]?.url || ""`. */
  function ThumbnailUrl(thumbs: seq<Thumbnail>): (r: string)
    ensures r != "" ==> thumbs != [] && thumbs[0].url == Some(r)
    ensures r == "" <==> thumbs == [] || thumbs[0].url == None || thumbs[0].url == Some("")
  {
    if thumbs == [] then "" else thumbs[0].url.GetOr("")
  }

  function BuildInfo(raw: RawInfo): VideoInfo {
    VideoInfo(raw.details.title, ThumbnailUrl(raw.details.thumbnails), raw.details.lengthSeconds, InfoFormats(raw.formats))
  }

  datatype InfoBody = Info(info: VideoInfo) | Message(text: string)

  datatype InfoReply = InfoReply(status: int, body: InfoBody, calls: seq<ExtractorCall>)

  /** The `POST /api/info` handler. `parsedUrl` is the outcome of validating
      the body (`None` when it is not an object with a URL string). */
  function HandleInfo(parsedUrl: Option<string>, ex: Extractor): (r: InfoReply)
    ensures r.status == 200 || r.status == 400
    ensures r.status == 200 <==> parsedUrl.Some? && ex.validateUrl(parsedUrl.value) && ex.getInfo(parsedUrl.value).Some?
    ensures r.status == 200 ==> r.body == Info(BuildInfo(ex.getInfo(parsedUrl.value).value))
    ensures parsedUrl.Some? && !ex.validateUrl(parsedUrl.value) ==>
      r.body == Message("Invalid YouTube URL") && r.calls == [ValidateUrl(parsedUrl.value)]
    ensures forall u :: GetInfo(u) in r.calls ==> ex.validateUrl(u)
  {
    match parsedUrl
    case None => InfoReply(400, Message("Failed to fetch video info"), [])
    case Some(url) =>
      if !ex.validateUrl(url) then InfoReply(400, Message("Invalid YouTube URL"), [ValidateUrl(url)])
      else
        var calls := [ValidateUrl(url), GetInfo(url)];
        match ex.getInfo(url)
        case None => InfoReply(400, Message("Failed to fetch video info"), calls)
        case Some(raw) => InfoReply(200, Info(BuildInfo(raw)), calls)
  }

  // ---------------------------------------------------------------------------
  // GET /api/download: pure decisions
  // ---------------------------------------------------------------------------

  /** `req.query.itag ? parseInt(req.query.itag) : undefined`; a missing
      parameter arrives as `""`. */
  function ParsedItag(itag: string): Option<int> {
    if itag == "" then None else ParseInt(itag)
  }

  /** The extension in the file name: `"mp3"` only for the format `"mp3"`. */
  function Extension(format: string): (ext: string)
    ensures ext == "mp3" <==> format == "mp3"
    ensures ext == "mp3" || ext == "mp4"
  {
    if format == "mp3" then "mp3" else "mp4"
  }

  /** The stream selection: audio only for `"mp3"` whatever the itag; the
      given itag when it is truthy (not 0, not `NaN`); otherwise the best
      encoding with both audio and video. */
  function SelectStream(format: string, itag: Option<int>): (o: StreamOptions)
    ensures o == HighestAudioOnly <==> format == "mp3"
    ensures o.Quality? <==> format != "mp3" && itag.Some? && itag.value != 0
    ensures o.Quality? ==> o.itag == itag.value
  {
    if format == "mp3" then HighestAudioOnly
    else if itag.Some? && itag.value != 0 then Quality(itag.value)
    else HighestAudioAndVideo
  }

  /** An itag of 0, a non-numeric itag and a missing one select the same
      stream. */
  lemma FalsyItagsAgree(format: string)
    ensures SelectStream(format, ParsedItag("0")) == SelectStream(format, ParsedItag(""))
    ensures SelectStream(format, ParsedItag("abc")) == SelectStream(format, ParsedItag(""))
  {
    ParseIntNumberToString(0);
    assert NumberToString(0) == "0";
    ParseIntNoDigits("abc");
  }

  /** Characters the title keeps: `/[^\w\s]/gi` removes every other one. */
  predicate FilenameChar(c: char) {
    IsWordChar(c) || IsWhitespace(c)
  }

  /** `title.replace(/[^\w\s]/gi, '')`. */
  function SanitizeTitle(t: string): (r: string)
    ensures |r| <= |t|
    ensures forall i :: 0 <= i < |r| ==> FilenameChar(r[i])
  {
    if t == [] then []
    else (if FilenameChar(t[0]) then [t[0]] else []) + SanitizeTitle(t[1..])
  }

  /** A character survives exactly when it occurs in the title and is a word
      or whitespace character. */
  lemma {:induction false} SanitizeTitleMembers(t: string)
    ensures forall c :: c in SanitizeTitle(t) <==> c in t && FilenameChar(c)
  {
    if t != [] {
      SanitizeTitleMembers(t[1..]);
      assert t == [t[0]] + t[1..];
    }
  }

  /** A title made only of word and whitespace characters is kept as it is. */
  lemma {:induction false} SanitizeTitleClean(t: string)
    requires forall i :: 0 <= i < |t| ==> FilenameChar(t[i])
    ensures SanitizeTitle(t) == t
  {
    if t != [] {
      SanitizeTitleClean(t[1..]);
      assert t == [t[0]] + t[1..];
    }
  }

  lemma {:induction false} SanitizeTitleAppend(a: string, b: string)
    ensures SanitizeTitle(a + b) == SanitizeTitle(a) + SanitizeTitle(b)
  {
    if a != [] {
      assert (a + b)[1..] == a[1..] + b;
      SanitizeTitleAppend(a[1..], b);
    } else {
      assert a + b == b;
    }
  }

  /** Sanitising twice is sanitising once. */
  lemma SanitizeTitleIdempotent(t: string)
    ensures SanitizeTitle(SanitizeTitle(t)) == SanitizeTitle(t)
  {
    SanitizeTitleClean(SanitizeTitle(t));
  }

  /** `r` is `t` with some characters left out. */
  predicate IsSubsequence(r: string, t: string)
    decreases |t|
  {
    if t == [] then r == []
    else (r != [] && r[0] == t[0] && IsSubsequence(r[1..], t[1..])) || IsSubsequence(r, t[1..])
  }

  lemma {:induction false} SanitizeTitleSubsequence(t: string)
    ensures IsSubsequence(SanitizeTitle(t), t)
  {
    if t != [] {
      SanitizeTitleSubsequence(t[1..]);
      var rest := SanitizeTitle(t[1..]);
      if FilenameChar(t[0]) {
        assert SanitizeTitle(t) == [t[0]] + rest;
        assert ([t[0]] + rest)[1..] == rest;
      } else {
        assert SanitizeTitle(t) == rest;
      }
    }
  }

  /** The title `"Foo: Bar? <Baz>!"`: punctuation goes, spaces stay. The
      title is passed in three pieces, each sanitised by its own small lemma,
      so that the verifier unfolds one short literal at a time and then joins
      the results with `SanitizeTitleAppend`. */
  lemma SanitizeTitleExample(a: string, b: string, c: string)
    requires a == "Foo: " && b == "Bar? " && c == "<Baz>!"
    ensures SanitizeTitle(a + b + c) == "Foo Bar Baz"
  {
    SanitizeFoo();
    SanitizeBar();
    SanitizeBaz();
    SanitizeTitleAppend(a, b);
    SanitizeTitleAppend(a + b, c);
  }

  lemma SanitizeFoo() ensures SanitizeTitle("Foo: ") == "Foo " {}
  lemma SanitizeBar() ensures SanitizeTitle("Bar? ") == "Bar " {}
  lemma SanitizeBaz() ensures SanitizeTitle("<Baz>!") == "Baz" {}

  /** Node refuses a header value with a character outside tab, 0x20-0x7E and
      0x80-0xFF (`res.header` then throws). */
  predicate HeaderChar(c: char) {
    c == '\t' || (' ' <= c <= '~') || ('\U{0080}' <= c <= '\U{00FF}')
  }

  predicate HeaderValueOk(v: string) {
    forall i :: 0 <= i < |v| ==> HeaderChar(v[i])
  }

  /** Whitespace that `\s` keeps in the title but that Node refuses in a
      header value: line breaks, vertical tab, form feed, and the spaces above
      U+00FF. */
  predicate UnsafeWhitespace(c: char) {
    IsWhitespace(c) && c != '\t' && c != ' ' && c != '\U{00A0}'
  }

  const DispositionPrefix := "attachment; filename=\""

  function Disposition(title: string, format: string): string {
    DispositionPrefix + title + "." + Extension(format) + "\""
  }

  /** No quote, slash, colon or angle bracket survives sanitising. */
  lemma SanitizedTitleHarmless(title: string)
    ensures forall c :: c in SanitizeTitle(title) ==> c != '"' && c != '/' && c != ':' && c != '<' && c != '>'
  {
    SanitizeTitleMembers(title);
  }

  /** The attachment header is accepted exactly when the raw title has no
      whitespace that Node refuses. */
  lemma DispositionAccepted(title: string, format: string)
    ensures HeaderValueOk(Disposition(SanitizeTitle(title), format)) <==> SafeTitle(title)
  {
    var s := SanitizeTitle(title);
    var post := "." + Extension(format) + "\"";
    assert Disposition(s, format) == DispositionPrefix + s + post;
    assert HeaderValueOk(Disposition(s, format)) <==> HeaderValueOk(DispositionPrefix + s + post);
    HeaderValueOkConcat(DispositionPrefix, s);
    HeaderValueOkConcat(DispositionPrefix + s, post);
    FixedPartsOk(format);
    SanitizedHeaderOk(title);
  }

  lemma FixedPartsOk(format: string)
    ensures HeaderValueOk(DispositionPrefix)
    ensures HeaderValueOk("." + Extension(format) + "\"")
  {
    var p := DispositionPrefix;
    forall i | 0 <= i < |p| ensures HeaderChar(p[i]) {
      assert ' ' <= p[i] <= '~';
    }
  }

  /** The sanitised title is a valid header value exactly when the raw title
      has no whitespace that Node refuses. */
  lemma SanitizedHeaderOk(title: string)
    ensures HeaderValueOk(SanitizeTitle(title)) <==> SafeTitle(title)
  {
    if !SafeTitle(title) {
      var i :| 0 <= i < |title| && UnsafeWhitespace(title[i]);
      UnsafeWhitespaceKept(title, i);
    } else {
      SafeTitleSanitizesSafe(title);
    }
  }

  /** No character of the title is whitespace that Node refuses in a header. */
  predicate SafeTitle(title: string) {
    forall i :: 0 <= i < |title| ==> !UnsafeWhitespace(title[i])
  }

  lemma UnsafeWhitespaceKept(title: string, i: int)
    requires 0 <= i < |title| && UnsafeWhitespace(title[i])
    ensures !HeaderValueOk(SanitizeTitle(title))
  {
    var s := SanitizeTitle(title);
    SanitizeTitleMembers(title);
    var c := title[i];
    UnsafeWhitespaceChar(c);
    assert c in s;
    var k :| 0 <= k < |s| && s[k] == c;
  }

  lemma SafeTitleSanitizesSafe(title: string)
    requires SafeTitle(title)
    ensures HeaderValueOk(SanitizeTitle(title))
  {
    var s := SanitizeTitle(title);
    SanitizeTitleMembers(title);
    forall k | 0 <= k < |s| ensures HeaderChar(s[k]) {
      var c := s[k];
      assert c in title;
      var i :| 0 <= i < |title| && title[i] == c;
      SafeFilenameChar(c);
    }
  }

  /** Of the characters the title keeps, exactly the unsafe whitespace is
      refused in a header. */
  lemma UnsafeWhitespaceChar(c: char)
    requires UnsafeWhitespace(c)
    ensures FilenameChar(c) && !HeaderChar(c)
  {
  }

  lemma SafeFilenameChar(c: char)
    requires FilenameChar(c) && !UnsafeWhitespace(c)
    ensures HeaderChar(c)
  {
  }

  /** A concatenation is a valid header value exactly when both parts are. */
  lemma HeaderValueOkConcat(a: string, b: string)
    ensures HeaderValueOk(a + b) <==> HeaderValueOk(a) && HeaderValueOk(b)
  {
    if HeaderValueOk(a + b) {
      forall i | 0 <= i < |a| ensures HeaderChar(a[i]) {
        assert (a + b)[i] == a[i];
      }
      forall i | 0 <= i < |b| ensures HeaderChar(b[i]) {
        assert (a + b)[|a| + i] == b[i];
      }
    }
    if HeaderValueOk(a) && HeaderValueOk(b) {
      forall i | 0 <= i < |a + b| ensures HeaderChar((a + b)[i]) {
        if i < |a| {
          assert (a + b)[i] == a[i];
        } else {
          assert (a + b)[i] == b[i - |a|];
        }
      }
    }
  }

  // ---------------------------------------------------------------------------
  // The HTTP response, as the handlers drive it
  // ---------------------------------------------------------------------------

  /** A piece of the response body: a text from `send`, or bytes piped from
      the media stream. */
  datatype Part = Text(text: string) | Media(bytes: seq<byte>)

  datatype ResState = ResState(
    status: int,
    headers: map<string, string>,
    headersSent: bool,
    body: seq<Part>,
    finished: bool)

  /** A fresh response: status 200, nothing set, nothing sent. */
  const Fresh := ResState(200, map[], false, [], false)

  class Response {
    var status: int
    var headers: map<string, string>
    var headersSent: bool
    var body: seq<Part>
    var finished: bool

    function State(): ResState
      reads this
    {
      ResState(status, headers, headersSent, body, finished)
    }

    constructor ()
      ensures State() == Fresh
    {
      status, headers, headersSent, body, finished := 200, map[], false, [], false;
    }

    /** `res.status(code)`: only records the code. */
    method SetStatus(code: int)
      modifies this
      ensures State() == old(State()).(status := code)
    {
      status := code;
    }

    /** `res.header(name, value)`; `ok` is false where Node throws. */
    method SetHeader(name: string, value: string) returns (ok: bool)
      requires !headersSent
      modifies this
      ensures ok == HeaderValueOk(value)
      ensures State() == if ok then old(State()).(headers := old(headers)[name := value]) else old(State())
    {
      ok := HeaderValueOk(value);
      if ok {
        headers := headers[name := value];
      }
    }

    /** `res.send(text)`: sends the headers and the text and ends the response. */
    method Send(text: string)
      requires !headersSent
      modifies this
      ensures State() == old(State()).(headersSent := true, body := old(body) + [Text(text)], finished := true)
    {
      headersSent := true;
      body := body + [Text(text)];
      finished := true;
    }

    /** A chunk written by the pipe; the first one sends the headers. */
    method Write(bytes: seq<byte>)
      requires !finished
      modifies this
      ensures State() == old(State()).(headersSent := true, body := old(body) + [Media(bytes)])
    {
      headersSent := true;
      body := body + [Media(bytes)];
    }

    /** The pipe ends the response when the media stream ends. */
    method End()
      requires !finished
      modifies this
      ensures State() == old(State()).(headersSent := true, finished := true)
    {
      headersSent := true;
      finished := true;
    }
  }

  // ---------------------------------------------------------------------------
  // GET /api/download: the handler
  // ---------------------------------------------------------------------------

  /** Query parameters; a missing one arrives as `""`, which the handler
      treats exactly as it treats `undefined`. */
  datatype DownloadQuery = DownloadQuery(url: string, format: string, itag: string)

  /** How the handler leaves things when it returns. */
  datatype DownloadPlan =
    | RejectUrl
    | InfoFailed
    | HeaderRefused
    | Relay(disposition: string, options: StreamOptions)

  function PlanDownload(q: DownloadQuery, ex: Extractor): (p: DownloadPlan)
    ensures p.RejectUrl? <==> !ex.validateUrl(q.url)
    ensures p.InfoFailed? <==> ex.validateUrl(q.url) && ex.getInfo(q.url).None?
    ensures p.HeaderRefused? <==>
      && ex.validateUrl(q.url) && ex.getInfo(q.url).Some?
      && !HeaderValueOk(Disposition(SanitizeTitle(ex.getInfo(q.url).value.details.title), q.format))
    ensures p.Relay? ==>
      && HeaderValueOk(p.disposition)
      && p.disposition == Disposition(SanitizeTitle(ex.getInfo(q.url).value.details.title), q.format)
      && p.options == SelectStream(q.format, ParsedItag(q.itag))
  {
    if !ex.validateUrl(q.url) then RejectUrl
    else match ex.getInfo(q.url)
      case None => InfoFailed
      case Some(info) =>
        var d := Disposition(SanitizeTitle(info.details.title), q.format);
        if !HeaderValueOk(d) then HeaderRefused
        else Relay(d, SelectStream(q.format, ParsedItag(q.itag)))
  }

  /** The extractor calls the handler makes: no fetch and no stream for a URL
      the check rejects; a stream only when the headers were set. */
  function DownloadCalls(q: DownloadQuery, ex: Extractor): (calls: seq<ExtractorCall>)
    ensures |calls| >= 1 && calls[0] == ValidateUrl(q.url)
    ensures !ex.validateUrl(q.url) ==> calls == [ValidateUrl(q.url)]
    ensures forall o :: OpenStream(q.url, o) in calls <==>
      PlanDownload(q, ex).Relay? && o == PlanDownload(q, ex).options
  {
    match PlanDownload(q, ex)
    case RejectUrl => [ValidateUrl(q.url)]
    case Relay(_, options) => [ValidateUrl(q.url), GetInfo(q.url), OpenStream(q.url, options)]
    case _ => [ValidateUrl(q.url), GetInfo(q.url)]
  }

  /** The response when the handler returns (before any stream event). */
  function PlanState(p: DownloadPlan): (s: ResState)
    ensures s.status == 400 <==> p.RejectUrl?
    ensures s.status == 500 <==> p.InfoFailed? || p.HeaderRefused?
    ensures !s.headersSent <==> p.Relay?
    ensures p.Relay? ==>
      && s.status == 200 && s.headers == map["Content-Disposition" := p.disposition]
      && s.body == [] && !s.finished
  {
    match p
    case RejectUrl => Fresh.(status := 400, headersSent := true, body := [Text("Invalid URL")], finished := true)
    case Relay(d, _) => Fresh.(headers := map["Content-Disposition" := d])
    case _ => Fresh.(status := 500, headersSent := true, body := [Text("Download failed")], finished := true)
  }

  /** The `GET /api/download` handler up to the moment it hands the response
      to the pipe. */
  method HandleDownload(res: Response, q: DownloadQuery, ex: Extractor) returns (calls: seq<ExtractorCall>)
    requires res.State() == Fresh
    modifies res
    ensures res.State() == PlanState(PlanDownload(q, ex))
    ensures calls == DownloadCalls(q, ex)
  {
    var itag := ParsedItag(q.itag);
    calls := [ValidateUrl(q.url)];
    if !ex.validateUrl(q.url) {
      res.SetStatus(400);
      res.Send("Invalid URL");
      return;
    }
    calls := calls + [GetInfo(q.url)];
    var info := ex.getInfo(q.url);
    if info.None? {
      res.SetStatus(500);
      res.Send("Download failed");
      return;
    }
    var title := SanitizeTitle(info.value.details.title);
    var ok := res.SetHeader("Content-Disposition", Disposition(title, q.format));
    if !ok {
      res.SetStatus(500);
      res.Send("Download failed");
      return;
    }
    var options := SelectStream(q.format, itag);
    calls := calls + [OpenStream(q.url, options)];
  }

  /** A title with a line break passes the URL check and the fetch, yet the
      download ends with status 500 before any stream is opened. */
  lemma LineBreakTitleFails(q: DownloadQuery, ex: Extractor)
    requires ex.validateUrl(q.url) && ex.getInfo(q.url).Some?
    requires ex.getInfo(q.url).value.details.title == "Line\nBreak"
    ensures PlanDownload(q, ex) == HeaderRefused
    ensures PlanState(PlanDownload(q, ex)).status == 500
    ensures forall o :: OpenStream(q.url, o) !in DownloadCalls(q, ex)
  {
    var t := "Line\nBreak";
    assert UnsafeWhitespace(t[4]);
    DispositionAccepted(t, q.format);
  }

  // ---------------------------------------------------------------------------
  // GET /api/download: the relay, driven by the media stream's events
  // ---------------------------------------------------------------------------

  datatype StreamEvent = Data(bytes: seq<byte>) | End | Error

  /** What one stream event does to the response: data is piped (sending the
      headers), the end ends the response, and an error answers 500 only if
      nothing has been sent yet. */
  function Step(s: ResState, e: StreamEvent): (t: ResState)
    ensures t.headersSent
    ensures s.headersSent ==> t.status == s.status && t.headers == s.headers
    ensures e.Error? && s.headersSent ==> t == s
    ensures e.Error? && !s.headersSent ==>
      && t.status == 500 && t.finished && t.headers == s.headers
      && t.body == s.body + [Text("Download failed")]
    ensures e.Data? ==> t.body == s.body + [Media(e.bytes)] && t.finished == s.finished
    ensures e.End? ==> t.finished && t.body == s.body
    ensures |s.body| <= |t.body| && t.body[..|s.body|] == s.body
  {
    match e
    case Data(b) => s.(headersSent := true, body := s.body + [Media(b)])
    case End => s.(headersSent := true, finished := true)
    case Error =>
      if s.headersSent then s
      else s.(status := 500, headersSent := true, body := s.body + [Text("Download failed")], finished := true)
  }

  function Run(s: ResState, events: seq<StreamEvent>): ResState
    decreases |events|
  {
    if events == [] then s else Run(Step(s, events[0]), events[1..])
  }

  /** The media stream emits data, and at most once at the very end an end
      or an error. */
  predicate WellFormed(events: seq<StreamEvent>) {
    forall i :: 0 <= i < |events| - 1 ==> events[i].Data?
  }

  /** Once the headers are out, no event changes the status or the headers,
      and nothing but media is added to the body: no second status code and
      no error text after a failure. */
  lemma {:induction false} SentIsFinal(s: ResState, events: seq<StreamEvent>)
    requires s.headersSent
    ensures Run(s, events).status == s.status && Run(s, events).headers == s.headers
    ensures |s.body| <= |Run(s, events).body| && Run(s, events).body[..|s.body|] == s.body
    ensures forall i :: |s.body| <= i < |Run(s, events).body| ==> Run(s, events).body[i].Media?
    decreases |events|
  {
    if events != [] {
      var t := Step(s, events[0]);
      SentIsFinal(t, events[1..]);
      assert forall i :: |s.body| <= i < |t.body| ==> t.body[i].Media?;
    }
  }

  /** From the state the handler leaves for the pipe, the download ends with
      status 500 exactly when the stream fails before its first chunk;
      otherwise it keeps status 200. */
  lemma RelayStatus(d: string, o: StreamOptions, events: seq<StreamEvent>)
    requires WellFormed(events)
    ensures var t := Run(PlanState(Relay(d, o)), events);
      && (t.status == 500 <==> events != [] && events[0].Error?)
      && (t.status == 200 <==> !(events != [] && events[0].Error?))
  {
    var s := PlanState(Relay(d, o));
    if events != [] {
      SentIsFinal(Step(s, events[0]), events[1..]);
    }
  }

  /** The response is finished when the stream ends, or when it fails before
      its first chunk; a failure after data leaves it open, since the handler
      neither sends nor ends anything then. */
  lemma {:induction false} RelayFinished(s: ResState, events: seq<StreamEvent>)
    requires !s.finished && WellFormed(events)
    ensures Run(s, events).finished <==>
      events != [] && (events[|events| - 1].End? || (events[|events| - 1].Error? && (|events| == 1 && !s.headersSent)))
    decreases |events|
  {
    if events != [] {
      var t := Step(s, events[0]);
      if |events| > 1 {
        assert events[0].Data?;
        assert WellFormed(events[1..]) by {
          forall i | 0 <= i < |events[1..]| - 1 ensures events[1..][i].Data? {
            assert events[1..][i] == events[i + 1];
          }
        }
        RelayFinished(t, events[1..]);
      } else {
        assert events[1..] == [];
      }
    }
  }

  /** The media parts the data events carry, in order. */
  function MediaOf(events: seq<StreamEvent>): seq<Part>
    decreases |events|
  {
    if events == [] then []
    else (if events[0].Data? then [Media(events[0].bytes)] else []) + MediaOf(events[1..])
  }

  predicate AllData(events: seq<StreamEvent>) {
    forall i :: 0 <= i < |events| ==> events[i].Data?
  }

  lemma AllDataTail(events: seq<StreamEvent>)
    requires AllData(events) && events != []
    ensures events[0].Data? && AllData(events[1..])
    ensures MediaOf(events) == [Media(events[0].bytes)] + MediaOf(events[1..])
  {
    assert events[0].Data?;
    forall i | 0 <= i < |events[1..]| ensures events[1..][i].Data? {
      assert events[1..][i] == events[i + 1];
    }
  }

  /** Data events only append their bytes, in order, and send the headers. */
  lemma {:induction false} RunData(s: ResState, events: seq<StreamEvent>)
    requires AllData(events)
    ensures var t := Run(s, events);
      t.status == s.status && t.headers == s.headers && t.finished == s.finished
    ensures Run(s, events).headersSent == (s.headersSent || events != [])
    ensures Run(s, events).body == s.body + MediaOf(events)
    decreases |events|
  {
    if events == [] {
      assert s.body + [] == s.body;
    } else {
      AllDataTail(events);
      var m := Media(events[0].bytes);
      var t := Step(s, events[0]);
      assert t.body == s.body + [m];
      RunData(t, events[1..]);
      assert s.body + ([m] + MediaOf(events[1..])) == (s.body + [m]) + MediaOf(events[1..]);
    }
  }

  /** Data events followed by the end finish the response with their bytes. */
  lemma {:induction false} RunDataEnd(s: ResState, events: seq<StreamEvent>)
    requires AllData(events)
    ensures var t := Run(s, events + [End]);
      t.status == s.status && t.headers == s.headers && t.finished && t.headersSent
    ensures Run(s, events + [End]).body == s.body + MediaOf(events)
    decreases |events|
  {
    if events == [] {
      assert [End][1..] == [];
      assert s.body + [] == s.body;
    } else {
      AllDataTail(events);
      var ev := events + [End];
      assert ev[0] == events[0] && ev[1..] == events[1..] + [End];
      var m := Media(events[0].bytes);
      var t := Step(s, events[0]);
      assert t.body == s.body + [m];
      RunDataEnd(t, events[1..]);
      assert s.body + ([m] + MediaOf(events[1..])) == (s.body + [m]) + MediaOf(events[1..]);
    }
  }

  /** From the state the handler leaves for the pipe, the body is exactly the
      stream's chunks in order, under status 200 and the attachment header;
      the end of the stream finishes the response with nothing added. */
  lemma RelayBody(d: string, o: StreamOptions, events: seq<StreamEvent>)
    requires AllData(events)
    ensures var t := Run(PlanState(Relay(d, o)), events);
      && t.status == 200 && t.headers == map["Content-Disposition" := d]
      && t.body == MediaOf(events) && !t.finished
    ensures var t := Run(PlanState(Relay(d, o)), events + [End]);
      && t.status == 200 && t.headers == map["Content-Disposition" := d]
      && t.body == MediaOf(events) && t.finished
  {
    RunData(PlanState(Relay(d, o)), events);
    RunDataEnd(PlanState(Relay(d, o)), events);
  }

  /** The pipe's handler for a chunk. */
  method OnStreamData(res: Response, bytes: seq<byte>)
    requires !res.finished
    modifies res
    ensures res.State() == Step(old(res.State()), Data(bytes))
  {
    res.Write(bytes);
  }

  /** The pipe's handler for the end of the stream. */
  method OnStreamEnd(res: Response)
    requires !res.finished
    modifies res
    ensures res.State() == Step(old(res.State()), End)
  {
    res.End();
  }

  /** The route's `error` listener: `if (!res.headersSent) res.status(500).send(...)`. */
  method OnStreamError(res: Response)
    modifies res
    ensures res.State() == Step(old(res.State()), Error)
  {
    if !res.headersSent {
      res.SetStatus(500);
      res.Send("Download failed");
    }
  }

  // ---------------------------------------------------------------------------
  // POST /api/history
  // ---------------------------------------------------------------------------

  datatype HistoryBody = Created(entry: Download) | HistoryMessage(text: string)

  datatype HistoryReply = HistoryReply(status: int, body: HistoryBody, stored: seq<InsertDownload>)

  /** `parsed` is the outcome of validating the body against the insert
      schema; `store` is the insert, `None` when it fails. */
  function HandleRecordHistory(parsed: Option<InsertDownload>, store: InsertDownload -> Option<Download>): (r: HistoryReply)
    ensures r.status == 201 || r.status == 400
    ensures r.status == 201 <==> parsed.Some? && store(parsed.value).Some?
    ensures r.status == 201 ==> r.body == Created(store(parsed.value).value)
    ensures r.status == 400 ==> r.body == HistoryMessage("Invalid history data")
    ensures r.stored == if parsed.Some? then [parsed.value] else []
  {
    match parsed
    case None => HistoryReply(400, HistoryMessage("Invalid history data"), [])
    case Some(input) =>
      match store(input)
      case None => HistoryReply(400, HistoryMessage("Invalid history data"), [input])
      case Some(entry) => HistoryReply(201, Created(entry), [input])
  }
}

=== FILE: shared_routes.dfy ===
/** The path-template builder shared by the client and the server:
    `buildUrl(path, params)` fills `:key` placeholders with parameter values. */
module SharedRoutes {
  import opened Wrappers
  import opened JsString

  /** A parameter value: `string | number`. Numbers are integers here. */
  datatype ParamValue = Str(text: string) | Num(n: int)

  /** `String(value)`. */
  function ToJsString(v: ParamValue): (s: string)
    ensures v.Str? ==> s == v.text
    ensures v.Num? ==> ParseInt(s) == Some(v.n)
  {
    match v
    case Str(t) => t
    case Num(n) =>
      ParseIntNumberToString(n);
      NumberToString(n)
  }

  /** The placeholder a key fills: `` `:${key}` ``. */
  function Placeholder(key: string): (p: string)
    ensures |p| == |key| + 1 && p[0] == ':' && p[1..] == key
  {
    ":" + key
  }

  /** One entry of the `forEach`: replace the first occurrence of the key's
      placeholder when the url includes it. */
  function ApplyEntry(url: string, entry: (string, ParamValue)): (r: string)
    ensures !Includes(url, Placeholder(entry.0)) ==> r == url
  {
    var pat := Placeholder(entry.0);
    if Includes(url, pat) then Replace(url, pat, ToJsString(entry.1)) else url
  }

  /** The url after the entries have been applied one after the other, the
      last entry last. */
  function ApplyAll(url: string, entries: seq<(string, ParamValue)>): string
    decreases |entries|
  {
    if entries == [] then url
    else ApplyEntry(ApplyAll(url, entries[..|entries| - 1]), entries[|entries| - 1])
  }

  /** `buildUrl(path, params)`; `None` is an absent `params`, and the entries
      come in the order `Object.entries` lists them. */
  method BuildUrl(path: string, params: Option<seq<(string, ParamValue)>>) returns (url: string)
    ensures params.None? ==> url == path
    ensures params.Some? ==> url == ApplyAll(path, params.value)
  {
    url := path;
    if params.Some? {
      var entries := params.value;
      var i := 0;
      while i < |entries|
        invariant 0 <= i <= |entries|
        invariant url == ApplyAll(path, entries[..i])
      {
        var key := entries[i].0;
        var value := entries[i].1;
        if Includes(url, Placeholder(key)) {
          url := Replace(url, Placeholder(key), ToJsString(value));
        }
        assert entries[..i + 1][..i] == entries[..i];
        i := i + 1;
      }
      assert entries[..|entries|] == entries;
    }
  }

  /** Entries are applied from left to right: the first entry sees the path,
      and every later entry sees the url the earlier ones produced. */
  lemma {:induction false} ApplyAllFirst(url: string, e: (string, ParamValue), rest: seq<(string, ParamValue)>)
    ensures ApplyAll(url, [e] + rest) == ApplyAll(ApplyEntry(url, e), rest)
    decreases |rest|
  {
    if rest == [] {
      assert ([e] + rest)[..0] == [];
    } else {
      var er := [e] + rest;
      var rest' := rest[..|rest| - 1];
      assert er[..|er| - 1] == [e] + rest';
      assert er[|er| - 1] == rest[|rest| - 1];
      ApplyAllFirst(url, e, rest');
      assert ApplyAll(url, er) == ApplyEntry(ApplyAll(url, [e] + rest'), rest[|rest| - 1]);
    }
  }

  /** A path without `:` has no placeholder, whatever the parameters. */
  lemma {:induction false} NoColonUnchanged(path: string, entries: seq<(string, ParamValue)>)
    requires forall i :: 0 <= i < |path| ==> path[i] != ':'
    ensures ApplyAll(path, entries) == path
    decreases |entries|
  {
    if entries != [] {
      NoColonUnchanged(path, entries[..|entries| - 1]);
      var pat := Placeholder(entries[|entries| - 1].0);
      if Includes(path, pat) {
        assert false;
      }
    }
  }

  /** `s` is `pre + pat + post` and `pat` does not start anywhere in `s`
      before the end of `pre`: this occurrence is the first one. */
  predicate FirstOccurrence(s: string, pre: string, pat: string, post: string) {
    && s == pre + pat + post
    && forall j :: 0 <= j < |pre| ==> !MatchAt(s, pat, j)
  }

  lemma FirstOccurrenceIndex(s: string, pre: string, pat: string, post: string)
    requires FirstOccurrence(s, pre, pat, post)
    ensures IndexOf(s, pat) == |pre|
  {
    assert s[|pre|..|pre| + |pat|] == pat;
    assert MatchAt(s, pat, |pre|);
  }

  /** Only the first occurrence of the placeholder is replaced, by the text
      of the value when it has no `$`; the text around it, and any later
      occurrence of the placeholder, stays. */
  lemma ReplacesFirstOccurrence(pre: string, key: string, post: string, value: ParamValue)
    requires FirstOccurrence(pre + Placeholder(key) + post, pre, Placeholder(key), post)
    requires forall i :: 0 <= i < |ToJsString(value)| ==> ToJsString(value)[i] != '$'
    ensures ApplyEntry(pre + Placeholder(key) + post, (key, value)) == pre + ToJsString(value) + post
  {
    var pat := Placeholder(key);
    var s := pre + pat + post;
    FirstOccurrenceIndex(s, pre, pat, post);
    assert s[..|pre|] == pre;
    assert s[|pre| + |pat|..] == post;
    SubstituteLiteral(pat, pre, post, ToJsString(value));
  }

  /** With a value without `$`, an applied entry changes the length by the
      difference between the value's text and the placeholder. */
  lemma ApplyEntryLength(url: string, key: string, value: ParamValue)
    requires Includes(url, Placeholder(key))
    requires forall i :: 0 <= i < |ToJsString(value)| ==> ToJsString(value)[i] != '$'
    ensures |ApplyEntry(url, (key, value))| == |url| - |Placeholder(key)| + |ToJsString(value)|
  {
    var pat := Placeholder(key);
    var p := IndexOf(url, pat);
    var pre := url[..p];
    var post := url[p + |pat|..];
    assert url == pre + pat + post by {
      assert url[p..p + |pat|] == pat;
    }
    assert FirstOccurrence(url, pre, pat, post);
    ReplacesFirstOccurrence(pre, key, post, value);
  }

  /** A value `"$&"` puts the matched placeholder back: the url is unchanged. */
  lemma MatchedTextValue(url: string, key: string)
    ensures ApplyEntry(url, (key, Str("$&"))) == url
  {
    var pat := Placeholder(key);
    if Includes(url, pat) {
      var p := IndexOf(url, pat);
      assert Substitute(pat, url[..p], url[p + |pat|..], "$&") == pat by {
        assert "$&"[2..] == "";
      }
      assert url[p..p + |pat|] == pat;
      assert url == url[..p] + pat + url[p + |pat|..];
    }
  }

  /** Matching is by substring: the first placeholder that starts with
      `:key` is filled, even when it goes on (key `id` fills the front of
      `:idx`, leaving the `x`). */
  lemma PlaceholderPrefixFilled(pre: string, key: string, rest: string, value: ParamValue)
    requires forall i :: 0 <= i < |pre| ==> pre[i] != ':'
    requires forall i :: 0 <= i < |ToJsString(value)| ==> ToJsString(value)[i] != '$'
    ensures ApplyEntry(pre + Placeholder(key) + rest, (key, value)) == pre + ToJsString(value) + rest
  {
    var pat := Placeholder(key);
    var s := pre + pat + rest;
    forall j | 0 <= j < |pre| ensures !MatchAt(s, pat, j) {
      assert s[j] == pre[j];
    }
    ReplacesFirstOccurrence(pre, key, rest, value);
  }
}

=== FILE: video_card.dfy ===
/** The client's video card: it turns the encodings served by `POST /api/info`
    into the options of the quality picker, chooses a default itag, and builds
    the download query and the history record when the user clicks download. */
module VideoCard {
  import opened Wrappers
  import opened JsString
  import opened Schema

  /** The tab the user picked. */
  datatype MediaKind = Mp4 | Mp3 {
    function Name(): string {
      if Mp4? then "mp4" else "mp3"
    }
  }

  // ---------------------------------------------------------------------------
  // Step 1: keep the encodings of the chosen kind
  // ---------------------------------------------------------------------------

  /** The video tab offers every encoding with a video track (video-only ones
      included); the audio tab every encoding with an audio track. */
  predicate Offered(kind: MediaKind, e: Encoding) {
    if kind == Mp4 then e.hasVideo else e.hasAudio
  }

  function FilterKind(formats: seq<Encoding>, kind: MediaKind): (r: seq<Encoding>)
    ensures |r| <= |formats|
    ensures forall e :: e in r <==> e in formats && Offered(kind, e)
  {
    if formats == [] then []
    else (if Offered(kind, formats[0]) then [formats[0]] else []) + FilterKind(formats[1..], kind)
  }

  /** The filter keeps the served order: filtering a concatenation is the
      concatenation of the filtered parts. */
  lemma {:induction false} FilterKindAppend(a: seq<Encoding>, b: seq<Encoding>, kind: MediaKind)
    ensures FilterKind(a + b, kind) == FilterKind(a, kind) + FilterKind(b, kind)
    decreases |a|
  {
    if a == [] {
      assert a + b == b;
    } else {
      var t := a[1..];
      var h := if Offered(kind, a[0]) then [a[0]] else [];
      var ft, fb := FilterKind(t, kind), FilterKind(b, kind);
      assert a + b == [a[0]] + (t + b);
      FilterKindAppend(t, b, kind);
      FilterKindCons(a[0], t + b, kind);
      FilterKindCons(a[0], t, kind);
      SeqAssoc(h, ft, fb);
    }
  }

  lemma SeqAssoc<T>(x: seq<T>, y: seq<T>, z: seq<T>)
    ensures x + (y + z) == (x + y) + z
  {
  }

  lemma FilterKindCons(e: Encoding, rest: seq<Encoding>, kind: MediaKind)
    ensures FilterKind([e] + rest, kind) == (if Offered(kind, e) then [e] else []) + FilterKind(rest, kind)
  {
    assert ([e] + rest)[1..] == rest;
  }

  /** A single encoding is kept exactly when it suits the tab. */
  lemma FilterKindSingle(e: Encoding, kind: MediaKind)
    ensures FilterKind([e], kind) == if Offered(kind, e) then [e] else []
  {
    assert [e][1..] == [];
  }

  // ---------------------------------------------------------------------------
  // Step 2: drop repeated labels (or repeated itags for unlabelled entries)
  // ---------------------------------------------------------------------------

  /** `a.findIndex(p)`: the first index whose element satisfies `p`, or -1. */
  function FindIndex<T>(a: seq<T>, p: T -> bool): (r: int)
    ensures -1 <= r < |a|
    ensures r >= 0 ==> p(a[r])
    ensures forall j :: 0 <= j < |a| && (r == -1 || j < r) ==> !p(a[j])
  {
    if a == [] then -1
    else if p(a[0]) then 0
    else
      var k := FindIndex(a[1..], p);
      if k == -1 then -1 else k + 1
  }

  /** The second filter's test for the element at index `i` of the array `a`
      being filtered: an unlabelled entry stays when it is where `findIndex`
      finds its itag, a labelled one when it is where `findIndex` finds its
      label. */
  predicate Keep(a: seq<Encoding>, i: nat)
    requires i < |a|
  {
    var v := a[i];
    if !HasLabel(v) then i == FindIndex(a, (t: Encoding) => t.itag == v.itag)
    else i == FindIndex(a, (t: Encoding) => t.qualityLabel == v.qualityLabel)
  }

  /** The reference reading of the second filter: `a[i]` is the first entry of
      `a` with its key, the key being the label when it has one and the itag
      otherwise (whether or not the earlier entry is labelled). */
  predicate FirstOfKey(a: seq<Encoding>, i: nat)
    requires i < |a|
  {
    if HasLabel(a[i]) then forall j :: 0 <= j < i ==> a[j].qualityLabel != a[i].qualityLabel
    else forall j :: 0 <= j < i ==> a[j].itag != a[i].itag
  }

  lemma KeepIsFirstOfKey(a: seq<Encoding>, i: nat)
    requires i < |a|
    ensures Keep(a, i) <==> FirstOfKey(a, i)
  {
  }

  /** `x` is one of `a[..n]` that is the first of `a` with its key. */
  predicate FirstEntryBefore(a: seq<Encoding>, n: nat, x: Encoding)
    requires n <= |a|
  {
    exists i :: 0 <= i < n && a[i] == x && FirstOfKey(a, i)
  }

  /** The second filter applied to the first `n` entries of `a` (the test still
      looks at the whole of `a`, as `findIndex` does). */
  function DedupPrefix(a: seq<Encoding>, n: nat): (r: seq<Encoding>)
    requires n <= |a|
    ensures |r| <= n
  {
    if n == 0 then []
    else DedupPrefix(a, n - 1) + (if Keep(a, n - 1) then [a[n - 1]] else [])
  }

  /** The filter keeps only entries that come first with their key. */
  lemma {:induction false} DedupPrefixSound(a: seq<Encoding>, n: nat)
    requires n <= |a|
    ensures forall x :: x in DedupPrefix(a, n) ==> FirstEntryBefore(a, n, x)
  {
    if n > 0 {
      DedupPrefixSound(a, n - 1);
      DedupPrefixStep(a, n);
      forall x | x in DedupPrefix(a, n) ensures FirstEntryBefore(a, n, x) {
        if x in DedupPrefix(a, n - 1) {
          var i :| 0 <= i < n - 1 && a[i] == x && FirstOfKey(a, i);
        } else {
          assert x == a[n - 1] && FirstOfKey(a, n - 1);
        }
      }
    }
  }

  /** The filter keeps every entry that comes first with its key. */
  lemma DedupPrefixComplete(a: seq<Encoding>, n: nat)
    requires n <= |a|
    ensures forall i :: 0 <= i < n && FirstOfKey(a, i) ==> a[i] in DedupPrefix(a, n)
  {
    forall i | 0 <= i < n && FirstOfKey(a, i) ensures a[i] in DedupPrefix(a, n) {
      DedupPrefixKeeps(a, n, i);
    }
  }

  /** `x` is a prefix of `y`. */
  ghost predicate IsPrefix<T>(x: seq<T>, y: seq<T>) {
    |x| <= |y| && y[..|x|] == x
  }

  /** The filter keeps the order of its input: what it keeps of the first
      `m` entries comes before anything it keeps of later ones. */
  lemma {:induction false} DedupPrefixExtends(a: seq<Encoding>, m: nat, n: nat)
    requires m <= n <= |a|
    ensures IsPrefix(DedupPrefix(a, m), DedupPrefix(a, n))
    decreases n - m
  {
    if m < n {
      DedupPrefixExtends(a, m, n - 1);
      DedupPrefixGrows(a, n);
      PrefixTrans(DedupPrefix(a, m), DedupPrefix(a, n - 1), DedupPrefix(a, n));
    } else {
      PrefixRefl(DedupPrefix(a, n));
    }
  }

  lemma DedupPrefixGrows(a: seq<Encoding>, n: nat)
    requires 0 < n <= |a|
    ensures IsPrefix(DedupPrefix(a, n - 1), DedupPrefix(a, n))
  {
    var r := DedupPrefix(a, n - 1);
    var tail := if Keep(a, n - 1) then [a[n - 1]] else [];
    assert DedupPrefix(a, n) == r + tail;
    assert (r + tail)[..|r|] == r;
  }

  lemma PrefixRefl<T>(x: seq<T>)
    ensures IsPrefix(x, x)
  {
    assert x[..|x|] == x;
  }

  lemma PrefixTrans<T>(x: seq<T>, y: seq<T>, z: seq<T>)
    requires IsPrefix(x, y) && IsPrefix(y, z)
    ensures IsPrefix(x, z)
  {
    assert z[..|x|] == z[..|y|][..|x|];
  }

  lemma {:induction false} DedupPrefixKeeps(a: seq<Encoding>, n: nat, i: nat)
    requires i < n <= |a| && FirstOfKey(a, i)
    ensures a[i] in DedupPrefix(a, n)
  {
    DedupPrefixStep(a, n);
    if i < n - 1 {
      DedupPrefixKeeps(a, n - 1, i);
    }
  }

  function Dedup(a: seq<Encoding>): seq<Encoding> {
    DedupPrefix(a, |a|)
  }

  /** Two entries the picker must not both show: same label, or both
      unlabelled with the same itag. */
  predicate Clash(x: Encoding, y: Encoding) {
    || (HasLabel(x) && x.qualityLabel == y.qualityLabel)
    || (!HasLabel(x) && !HasLabel(y) && x.itag == y.itag)
  }

  predicate Distinct(s: seq<Encoding>) {
    forall i, j :: 0 <= i < j < |s| ==> !Clash(s[i], s[j])
  }

  lemma DedupPrefixStep(a: seq<Encoding>, n: nat)
    requires 0 < n <= |a|
    ensures DedupPrefix(a, n) == DedupPrefix(a, n - 1) + (if FirstOfKey(a, n - 1) then [a[n - 1]] else [])
  {
    KeepIsFirstOfKey(a, n - 1);
  }

  /** An entry that is first with its key clashes with no earlier entry. */
  lemma FirstOfKeyNoClash(a: seq<Encoding>, i: nat, j: nat)
    requires j < i < |a| && FirstOfKey(a, i)
    ensures !Clash(a[j], a[i])
  {
  }

  lemma DistinctAppend(s: seq<Encoding>, y: Encoding)
    requires Distinct(s)
    requires forall k :: 0 <= k < |s| ==> !Clash(s[k], y)
    ensures Distinct(s + [y])
  {
    var r := s + [y];
    forall i, j | 0 <= i < j < |r| ensures !Clash(r[i], r[j]) {
      if j < |s| {
        assert r[i] == s[i] && r[j] == s[j];
      } else {
        assert r[i] == s[i] && r[j] == y;
      }
    }
  }

  lemma {:induction false} DedupPrefixDistinct(a: seq<Encoding>, n: nat)
    requires n <= |a|
    ensures Distinct(DedupPrefix(a, n))
  {
    if n > 0 {
      var prev := DedupPrefix(a, n - 1);
      DedupPrefixDistinct(a, n - 1);
      DedupPrefixStep(a, n);
      if FirstOfKey(a, n - 1) {
        DedupPrefixNoClash(a, n - 1);
        DistinctAppend(prev, a[n - 1]);
        assert DedupPrefix(a, n) == prev + [a[n - 1]];
      } else {
        assert DedupPrefix(a, n) == prev + [];
        assert prev + [] == prev;
      }
    }
  }

  /** An entry that is first with its key clashes with nothing the filter kept
      before it. */
  lemma DedupPrefixNoClash(a: seq<Encoding>, n: nat)
    requires n < |a| && FirstOfKey(a, n)
    ensures forall k :: 0 <= k < |DedupPrefix(a, n)| ==> !Clash(DedupPrefix(a, n)[k], a[n])
  {
    var prev := DedupPrefix(a, n);
    DedupPrefixSound(a, n);
    forall k | 0 <= k < |prev| ensures !Clash(prev[k], a[n]) {
      assert prev[k] in prev;
      assert FirstEntryBefore(a, n, prev[k]);
      var i :| 0 <= i < n && a[i] == prev[k] && FirstOfKey(a, i);
      FirstOfKeyNoClash(a, n, i);
    }
  }

  // ---------------------------------------------------------------------------
  // Step 3: sort by itag, highest first
  // ---------------------------------------------------------------------------

  /** Non-increasing by itag. (`itag || 0` is the itag itself for an integer.) */
  predicate SortedByItag(s: seq<Encoding>) {
    forall i, j :: 0 <= i < j < |s| ==> s[i].itag >= s[j].itag
  }

  /** Places `x` before the first entry whose itag is not above its own, so
      that entries with equal itags keep their order. */
  function Insert(x: Encoding, s: seq<Encoding>): (r: seq<Encoding>)
    ensures multiset(r) == multiset(s) + multiset{x}
    ensures |r| == |s| + 1
  {
    if s == [] || s[0].itag <= x.itag then [x] + s
    else
      assert s == [s[0]] + s[1..];
      [s[0]] + Insert(x, s[1..])
  }

  lemma {:induction false} InsertSorted(x: Encoding, s: seq<Encoding>)
    requires SortedByItag(s)
    ensures SortedByItag(Insert(x, s))
  {
    if s != [] && s[0].itag > x.itag {
      InsertSorted(x, s[1..]);
      var r := Insert(x, s[1..]);
      forall k | 0 <= k < |r| ensures s[0].itag >= r[k].itag {
        assert r[k] in multiset(r);
        assert r[k] == x || r[k] in multiset(s[1..]);
        if r[k] != x {
          var j :| 0 <= j < |s[1..]| && s[1..][j] == r[k];
          assert s[j + 1] == r[k];
        }
      }
    }
  }

  /** `Array.prototype.sort` with comparator `(a, b) => (b.itag || 0) - (a.itag || 0)`.
      The built-in sort is stable, so this is a stable insertion sort. */
  function SortByItag(s: seq<Encoding>): (r: seq<Encoding>)
    ensures multiset(r) == multiset(s)
    ensures |r| == |s|
  {
    if s == [] then []
    else
      assert s == [s[0]] + s[1..];
      Insert(s[0], SortByItag(s[1..]))
  }

  lemma SortByItagMembers(s: seq<Encoding>)
    ensures forall x :: x in SortByItag(s) <==> x in s
  {
    forall x ensures x in SortByItag(s) <==> x in s {
      assert x in SortByItag(s) <==> x in multiset(SortByItag(s));
      assert x in s <==> x in multiset(s);
    }
  }

  lemma {:induction false} SortByItagSorted(s: seq<Encoding>)
    ensures SortedByItag(SortByItag(s))
  {
    if s != [] {
      SortByItagSorted(s[1..]);
      InsertSorted(s[0], SortByItag(s[1..]));
    }
  }

  /** The entries of `s` with itag `k`, in order. */
  function WithItag(s: seq<Encoding>, k: int): seq<Encoding> {
    if s == [] then []
    else (if s[0].itag == k then [s[0]] else []) + WithItag(s[1..], k)
  }

  lemma WithItagCons(y: Encoding, r: seq<Encoding>, k: int)
    ensures WithItag([y] + r, k) == (if y.itag == k then [y] else []) + WithItag(r, k)
  {
    assert ([y] + r)[1..] == r;
  }

  /** Putting an entry with a higher itag in front of `r` and of `t` keeps
      `x` ahead of the entries with its itag. */
  lemma WithItagPastHigher(y: Encoding, x: Encoding, r: seq<Encoding>, t: seq<Encoding>, k: int)
    requires y.itag > x.itag
    requires WithItag(r, k) == (if x.itag == k then [x] else []) + WithItag(t, k)
    ensures WithItag([y] + r, k) == (if x.itag == k then [x] else []) + WithItag([y] + t, k)
  {
    WithItagCons(y, r, k);
    WithItagCons(y, t, k);
    var w := WithItag(t, k);
    if y.itag == k {
      assert WithItag([y] + r, k) == [y] + w;
    } else if x.itag == k {
      assert WithItag([y] + r, k) == [x] + w;
    } else {
      assert WithItag([y] + r, k) == w;
    }
  }

  /** Inserting `x` puts it ahead of every entry with its itag. */
  lemma {:induction false} InsertWithItag(x: Encoding, s: seq<Encoding>, k: int)
    ensures WithItag(Insert(x, s), k) == (if x.itag == k then [x] else []) + WithItag(s, k)
  {
    if s == [] || s[0].itag <= x.itag {
      assert Insert(x, s) == [x] + s;
      WithItagCons(x, s, k);
    } else {
      var r := Insert(x, s[1..]);
      assert Insert(x, s) == [s[0]] + r;
      assert s == [s[0]] + s[1..];
      InsertWithItag(x, s[1..], k);
      WithItagPastHigher(s[0], x, r, s[1..], k);
    }
  }

  /** The sort is stable: for every itag, the entries carrying it appear in the
      output in the order they had in the input. Together with sortedness this
      fixes the output completely. */
  lemma {:induction false} SortByItagStable(s: seq<Encoding>, k: int)
    ensures WithItag(SortByItag(s), k) == WithItag(s, k)
  {
    if s != [] {
      SortByItagStable(s[1..], k);
      InsertWithItag(s[0], SortByItag(s[1..]), k);
    }
  }

  lemma {:induction false} InsertDistinct(x: Encoding, s: seq<Encoding>)
    requires Distinct(s)
    requires forall y :: y in s ==> !Clash(x, y) && !Clash(y, x)
    ensures Distinct(Insert(x, s))
  {
    if s != [] && s[0].itag > x.itag {
      InsertDistinct(x, s[1..]);
      var r := Insert(x, s[1..]);
      forall k | 0 <= k < |r| ensures !Clash(s[0], r[k]) {
        assert r[k] in multiset(r);
        if r[k] != x {
          assert r[k] in multiset(s[1..]);
          var j :| 0 <= j < |s[1..]| && s[1..][j] == r[k];
          assert s[j + 1] == r[k];
        }
      }
    }
  }

  lemma {:induction false} SortByItagDistinct(s: seq<Encoding>)
    requires Distinct(s)
    ensures Distinct(SortByItag(s))
  {
    if s != [] {
      assert Distinct(s[1..]) by {
        forall i, j | 0 <= i < j < |s[1..]| ensures !Clash(s[1..][i], s[1..][j]) {
          assert s[1..][i] == s[i + 1] && s[1..][j] == s[j + 1];
        }
      }
      SortByItagDistinct(s[1..]);
      var t := SortByItag(s[1..]);
      forall y | y in t ensures !Clash(s[0], y) && !Clash(y, s[0]) {
        assert y in multiset(t);
        assert y in multiset(s[1..]);
        var j :| 0 <= j < |s[1..]| && s[1..][j] == y;
        assert s[j + 1] == y;
      }
      InsertDistinct(s[0], t);
    }
  }

  // ---------------------------------------------------------------------------
  // The picker's options
  // ---------------------------------------------------------------------------

  /** `availableFormats`: filter by kind, drop repeated keys, sort by itag. */
  function AvailableFormats(formats: seq<Encoding>, kind: MediaKind): seq<Encoding> {
    SortByItag(Dedup(FilterKind(formats, kind)))
  }

  /** Every option is one of the served encodings and suits the chosen tab
      (video-only entries are allowed on the video tab). */
  lemma AvailableOffered(formats: seq<Encoding>, kind: MediaKind)
    ensures forall e :: e in AvailableFormats(formats, kind) ==> e in formats && Offered(kind, e)
    ensures kind == Mp4 ==> forall e :: e in AvailableFormats(formats, kind) ==> e.hasVideo
    ensures kind == Mp3 ==> forall e :: e in AvailableFormats(formats, kind) ==> e.hasAudio
  {
    var f := FilterKind(formats, kind);
    var d := Dedup(f);
    SortByItagMembers(d);
    DedupPrefixSound(f, |f|);
    forall e | e in d ensures e in f {
      assert FirstEntryBefore(f, |f|, e);
      var i :| 0 <= i < |f| && f[i] == e && FirstOfKey(f, i);
    }
  }

  /** An option is exactly an entry that is the first of the kind-filtered
      list with its label (or, unlabelled, with its itag). */
  lemma AvailableFirstOfKey(formats: seq<Encoding>, kind: MediaKind)
    ensures var f := FilterKind(formats, kind);
      && (forall e :: e in AvailableFormats(formats, kind) ==> FirstEntryBefore(f, |f|, e))
      && (forall i :: 0 <= i < |f| && FirstOfKey(f, i) ==> f[i] in AvailableFormats(formats, kind))
  {
    var f := FilterKind(formats, kind);
    var d := Dedup(f);
    SortByItagMembers(d);
    DedupPrefixSound(f, |f|);
    DedupPrefixComplete(f, |f|);
    forall e | e in AvailableFormats(formats, kind) ensures FirstEntryBefore(f, |f|, e) {
      assert e in DedupPrefix(f, |f|);
    }
  }

  /** No two options share a label, and no two unlabelled options share an
      itag; the options run from the highest itag down. */
  lemma AvailableDistinctSorted(formats: seq<Encoding>, kind: MediaKind)
    ensures Distinct(AvailableFormats(formats, kind))
    ensures SortedByItag(AvailableFormats(formats, kind))
  {
    var f := FilterKind(formats, kind);
    DedupPrefixDistinct(f, |f|);
    SortByItagDistinct(Dedup(f));
    SortByItagSorted(Dedup(f));
  }

  /** Two served encodings with the same label give exactly one option for
      that label, and it is the first of them in the kind-filtered order. */
  lemma AvailableOnePerLabel(formats: seq<Encoding>, kind: MediaKind, i: nat)
    requires i < |FilterKind(formats, kind)|
    requires HasLabel(FilterKind(formats, kind)[i])
    ensures var f := FilterKind(formats, kind);
      var r := AvailableFormats(formats, kind);
      var first := FindIndex(f, (t: Encoding) => t.qualityLabel == f[i].qualityLabel);
      && 0 <= first <= i
      && exists k :: 0 <= k < |r| && r[k] == f[first]
           && forall k' :: 0 <= k' < |r| && r[k'].qualityLabel == f[i].qualityLabel ==> k' == k
  {
    var f := FilterKind(formats, kind);
    var r := AvailableFormats(formats, kind);
    var first := FindIndex(f, (t: Encoding) => t.qualityLabel == f[i].qualityLabel);
    assert first >= 0 && first <= i;
    assert FirstOfKey(f, first);
    AvailableFirstOfKey(formats, kind);
    assert f[first] in r;
    var k :| 0 <= k < |r| && r[k] == f[first];
    AvailableDistinctSorted(formats, kind);
    forall k' | 0 <= k' < |r| && r[k'].qualityLabel == f[i].qualityLabel ensures k' == k {
      if k' < k {
        assert false;
      } else if k' > k {
        assert false;
      }
    }
  }

  // ---------------------------------------------------------------------------
  // Default selection, download query and history record
  // ---------------------------------------------------------------------------

  /** `quality || (available.length > 0 ? String(available[0].itag) : "")`:
      the itag shown in the picker and sent with the download. */
  function SelectedItag(quality: string, available: seq<Encoding>): (r: string)
    ensures r == "" <==> quality == "" && available == []
    ensures r != quality ==> quality == "" && ParseInt(r) == Some(available[0].itag)
  {
    if quality != "" then quality
    else if |available| > 0 then
      ParseIntNumberToString(available[0].itag);
      NumberToString(available[0].itag)
    else ""
  }

  /** With no explicit choice, the selection is the highest itag on offer. */
  lemma DefaultIsHighest(formats: seq<Encoding>, kind: MediaKind)
    requires AvailableFormats(formats, kind) != []
    ensures var r := AvailableFormats(formats, kind);
      && ParseInt(SelectedItag("", r)) == Some(r[0].itag)
      && forall e :: e in r ==> e.itag <= r[0].itag
  {
    AvailableDistinctSorted(formats, kind);
  }

  /** `URLSearchParams.get`: the first value stored under `key`. */
  function Lookup(params: seq<(string, string)>, key: string): Option<string> {
    if params == [] then None
    else if params[0].0 == key then Some(params[0].1)
    else Lookup(params[1..], key)
  }

  /** A parameter is found exactly when some entry carries its key, and its
      value is the one of the first such entry. */
  lemma {:induction false} LookupFirst(params: seq<(string, string)>, key: string)
    ensures Lookup(params, key).None? <==> forall i :: 0 <= i < |params| ==> params[i].0 != key
    ensures Lookup(params, key).Some? ==>
      exists i :: 0 <= i < |params| && params[i] == (key, Lookup(params, key).value)
        && forall j :: 0 <= j < i ==> params[j].0 != key
    decreases |params|
  {
    if params != [] && params[0].0 != key {
      LookupFirst(params[1..], key);
      if Lookup(params, key).Some? {
        var i :| 0 <= i < |params[1..]| && params[1..][i] == (key, Lookup(params, key).value)
          && forall j :: 0 <= j < i ==> params[1..][j].0 != key;
        assert params[i + 1] == params[1..][i];
        forall j | 0 <= j < i + 1 ensures params[j].0 != key {
          if j > 0 {
            assert params[j] == params[1..][j - 1];
          }
        }
      } else {
        forall i | 0 <= i < |params| ensures params[i].0 != key {
          if i > 0 {
            assert params[i] == params[1..][i - 1];
          }
        }
      }
    } else if params != [] {
      assert params[0] == (key, Lookup(params, key).value);
    }
  }

  /** The query of the download link: `url` and `format` always, `itag` only
      when a non-empty itag is selected. */
  function DownloadParams(originalUrl: string, kind: MediaKind, selected: string): (q: seq<(string, string)>)
    ensures Lookup(q, "url") == Some(originalUrl)
    ensures Lookup(q, "format") == Some(kind.Name())
    ensures Lookup(q, "itag") == if selected != "" then Some(selected) else None
  {
    var tail := if selected != "" then [("itag", selected)] else [];
    var q := [("url", originalUrl), ("format", kind.Name())] + tail;
    assert q[1..][1..] == tail;
    assert Lookup(q, "itag") == Lookup(q[1..], "itag") == Lookup(tail, "itag");
    q
  }

  /** The history record sent when a download starts; an unset quality is
      recorded as `"auto"`. */
  function HistoryPayload(originalUrl: string, info: VideoInfo, kind: MediaKind, quality: string): (r: InsertDownload)
    ensures r.quality.Some? && r.quality.value != ""
    ensures r.quality.value != quality ==> quality == "" && r.quality.value == "auto"
    ensures r.url == originalUrl && r.title == info.title && r.format == kind.Name()
    ensures r.thumbnail == Some(info.thumbnail)
  {
    InsertDownload(originalUrl, info.title, Some(info.thumbnail), kind.Name(), Some(if quality != "" then quality else "auto"))
  }

  /** What a click on the download button produces: the query of the link it
      navigates to, and the history record it posts. */
  datatype DownloadIntent = DownloadIntent(query: seq<(string, string)>, record: InsertDownload)

  function HandleDownload(info: VideoInfo, originalUrl: string, kind: MediaKind, quality: string): (r: DownloadIntent)
    ensures var available := AvailableFormats(info.formats, kind);
      && (Lookup(r.query, "itag").Some? <==> quality != "" || available != [])
      && (quality == "" && available != [] ==>
            Lookup(r.query, "itag").Some? && ParseInt(Lookup(r.query, "itag").value) == Some(available[0].itag))
      && (r.record.quality == Some("auto") <==> quality == "" || quality == "auto")
  {
    var selected := SelectedItag(quality, AvailableFormats(info.formats, kind));
    DownloadIntent(DownloadParams(originalUrl, kind, selected), HistoryPayload(originalUrl, info, kind, quality))
  }
}

=== FILE: wrappers.dfy ===
/** Optional values. `None` stands for JavaScript's `undefined`, `null` or `NaN`
    wherever the source only tests whether a value is there. */
module Wrappers {

  datatype Option<+T> = None | Some(value: T) {

    /** The value, or `default` when absent (JavaScript's `x ?? default`). */
    function GetOr(default: T): T {
      match this
      case Some(v) => v
      case None => default
    }
  }
}
